=== FILE: README.md ===
# soccer-rag entity reconciliation, modelled in Dafny

soccer-rag answers football questions over a SoccerNet database. First an LLM
extracts entity mentions (teams, players, leagues) from the user's prompt.
These are then *reconciled* with the values actually stored in the database.
Reconciliation has these parts:
- **known values:** `query_as_list` builds the set of known values of a column;
- **the three-tier fuzzy policy:** `fuzzy_string` auto-accepts a single
  confident match, offers the tie set at the top score, or falls back to a
  low-confidence list;
- **the interactive pass:** `check_and_update_properties` settles every
  extracted value with an augmentation alias, an automatic match or the user's
  answer;
- **primary keys:** `remove_duplicates` and `fetch_pks` line the keys up with
  the values;
- **prompt rewriting:** `update_prompt_enhanced` appends an "Updated
  Information" block to the prompt.

The model also covers:
- the pure helpers buried in the database loader: game-time parsing, event-time
  extraction, label renaming, the `"NULL "` name prefix, goal counts,
  visibility flags, team-side selection and `get_or_create`;
- the chat front end's merge of the user's selections into the validated
  properties.

The model is functional:
- Python dicts are insertion-ordered association lists (`Dicts.Dict`).
- Exceptions are `Result` failures (`Common.Error`).
- The database is the data each query would read (`Retrieval.Backend`).
- The two similarity scorers are oracle functions stored in the backend.
- The user is a list of answers consumed front to back. Running out of
  answers is `EndOfInput`.

Where the code has a defect, the model keeps both halves: the behaviour as
written and the corrected one. The reconciliation pass is parameterised by a
`Variant` (`AsWritten` or `Corrected`); each defect is listed under Findings.

Modules, in dependency order:
- `Common`: `Option`, `Result` and the Python exceptions.
- `Text`: the Python string built-ins the code relies on, namely `strip`,
  `find`, `split`, `join`, `replace`, `int()`, `str()` of an int, and SQL
  `LOWER`.
- `Dicts`: dict get, set and delete, plus the value shapes stored in dicts.
- `KnownValues`: `query_as_list`.
- `Matching`: `fuzzy_string`.
- `Retrieval`: `Retriever`, `find_close_matches`, `fetch_pk` and
  `setup_retrievers`.
- `Reconcile`: `check_and_update_properties` and `recheck_property_value`.
- `PropertyLists`: `remove_duplicates` and `fetch_pks`.
- `Annotation`: `update_prompt_enhanced` and `update_prompt`.
- `Ingest`: the loader fragments from src/database.py.
- `HumanMerge`: the selection and merge steps of app.py.

Behaviour of the code that a reader might not expect:
- `find_close_matches` passes threshold 70 to `fuzzy_string`, not that
  function's default of 80.
- The tie set is the candidates sharing the *first* qualifying score, not the
  highest score. The two agree when the scorer ranks best first; this is
  proved as `Matching.FuzzyStringFollowsPolicy`.
- The re-enter choice `4` does not loop back into matching. As written it
  raises `TypeError`, because of an arity mismatch.
- Menu answers `2` or `3` beyond the offered candidates raise `IndexError`;
  these conditions are not handled locally.

Two notes on faithfulness:
- Line 299 of the pass assigns the list under construction to the property
  early. The list is the same object that line 323 stores, so the model
  stores it once, at the end.
- Iterating over a bare-string value visits its characters, and the model
  does the same (`Dicts.Iterated`).

## Model

| member | source | states |
|---|---|---|
| Text.Strip | extractor.py:77 | the stripped text starts and ends with a kept character, and it is empty only when every character would be dropped |
| Text.StripIsSlice | extractor.py:77 | the stripped text is a slice of the original with only dropped characters before and after it |
| Text.Split | src/database.py:282-283 | joining the parts with the separator gives back the string, no part contains the separator, and a string without the separator is its own single part |
| Text.SplitFirstCut | src/database.py:282-283 | the first cut is at the first occurrence of the separator and the remaining parts are the split of what follows it, so cuts go left to right without overlap |
| Text.Replace | extractor.py:361-362 | a text without the target comes back unchanged |
| Text.ParseIntOfIntToString | src/database.py:286-288 | `int(str(n)) == n` for every integer, negative ones included |
| Text.IntToString | extractor.py:95 | `str(n)`, as an f-string renders an integer: never empty, and made only of digits and a minus sign; Text.ParseIntOfIntToString reads it back |
| Text.ParseInt | src/database.py:286-288 | `int()` on text, defined by its body; Text.ParseIntOfIntToString states that it reads back every rendered integer, and Ingest.ConvertToSecondsOfGameTime what it gives on digit strings |
| Text.LowerAscii | extractor.py:87 | SQL `LOWER` keeps the length and folds exactly the ASCII capitals |
| Text.ReplaceOnce | extractor.py:361 | replacing the only occurrence of a placeholder puts the text in its place and keeps both sides |
| Text.ReplaceTwice | extractor.py:361-362 | two successive replacements of two single placeholders fill both |
| Text.ReplaceFirst | extractor.py:361-362 | replacing a placeholder whose first occurrence follows `x`, and which does not recur after it, puts the text in its place and keeps both sides |
| Dicts.AsList | extractor.py:168-169 | a bare value becomes a one-element list and a list stays as it is |
| Dicts.Iterated | extractor.py:277 | iterating a list yields its items, and iterating a bare string yields its one-character strings |
| Dicts.Keys | extractor.py:330 | `list(d.keys())` has one key per entry, the i-th being the i-th entry's key, so insertion order is kept |
| Dicts.Get | extractor.py:332 | a key is found exactly when it is among the keys, and what is found is its entry's value |
| Dicts.Put | extractor.py:335 | after `d[k] = v`, `k` reads `v` and every other key reads what it did |
| Dicts.PutKeys | extractor.py:335 | assigning an existing key keeps the key order, and a new key goes last |
| Dicts.PutDistinct | extractor.py:335 | assignment never repeats a key |
| Dicts.Delete | extractor.py:333 | after `del d[k]`, `k` is absent, the other keys read what they did, no entry is invented, and distinct keys stay distinct |
| KnownValues.ScanIsKept | extractor.py:77 | the left-to-right `\b\d+\b` deletion removes exactly the digits whose whole digit run sits between non-word characters or string ends |
| KnownValues.Scan | extractor.py:77 | the left-to-right scan of `re.sub(r"\b\d+\b", "", s)`, defined by its body; KnownValues.ScanIsKept states that it equals the run-based reference |
| KnownValues.RemoveStandaloneDigits | extractor.py:77 | the regular-expression substitution agrees with the run-based reference definition |
| KnownValues.Normalize | extractor.py:76-77 | a numeric column is left alone, and otherwise the normalised value has no whitespace at either end |
| KnownValues.QueryAsList | extractor.py:72-80 | a table with no row fails with a data-access error, because `db.run` answers "" and `ast.literal_eval` rejects it; otherwise the known values hold no duplicate, and a string is known exactly when it is the normalised form of some non-empty cell |
| KnownValues.DistinctValues | extractor.py:75-79 | `list(set(...))` over the normalised non-empty cells: no duplicate, and a string is present exactly when it is the normalised form of some non-empty cell |
| KnownValues.NormalizeKeepsGluedDigit | extractor.py:77 | "Team2" keeps its digit |
| KnownValues.NormalizeDropsStandaloneDigit | extractor.py:77 | "Team 2" becomes "Team" |
| KnownValues.NormalizeNumberOnly | extractor.py:76-77 | "2015" normalises to "" in a text column and stays in a numeric one |
| Matching.AtLeast | extractor.py:139 | a candidate is kept exactly when it was offered with a score at or above the threshold, and the result is no longer than the input |
| Matching.AtLeastAppend | extractor.py:139 | the filter distributes over concatenation, so the comprehension keeps the input order and every qualifying occurrence |
| Matching.WithScore | extractor.py:154 | a candidate is kept exactly when it was offered with exactly that score |
| Matching.FuzzyString | extractor.py:133-160 | with nothing at the threshold the result is the list of candidates at the low floor, in input order; otherwise it is restricted to the candidates sharing the first qualifying score, a bare string exactly when one such candidate exists and a list of two or more otherwise; every string returned was offered |
| Matching.TopTies | extractor.py:149-157 | the first qualifying candidate heads the tie set, a lone qualifying candidate has no tie, and filtering at the threshold first changes nothing |
| Matching.TiesIgnoreThreshold | extractor.py:153-154 | ties at a score that clears the threshold are the same whether or not the threshold filter ran |
| Matching.FuzzyStringFollowsPolicy | extractor.py:133-160 | for a scorer that ranks best first, the result is the best-score policy: the floor list below the threshold, else the unique best candidate or all holders of the best score |
| Matching.AutoAcceptExample | extractor.py:149-150 | a single candidate at 91 of two is accepted as a bare string |
| Matching.TieExample | extractor.py:153-160 | two candidates tied at 86 are both offered, in input order |
| Retrieval.FirstAlias | extractor.py:87-94 | the alias found is the first whose `LOWER` equals the value's, and none is found only when no alias matches |
| Retrieval.AugmentedItem | extractor.py:82-103 | without an augmentation table, or without a matching alias, nothing is found; otherwise the first matching alias's key is spliced in as its unquoted text, and the result is the column value the database gives for that text, failing exactly when there is no key column or the database gives no row |
| Retrieval.KeyLiteral | extractor.py:94-95 | the foreign key as the f-string splices it, unquoted: an integer key is rendered so that `int()` reads back the same number; Retrieval.AugmentedItem looks the value up by this text |
| Retrieval.FindCloseMatches | extractor.py:105-131 | an empty table fails when the known values are loaded; otherwise difflib's list is passed through, the fuzzy result offers only strings the scorer proposed, and only the fuzzy path yields a bare string |
| Retrieval.FindCloseMatchesGrounded | extractor.py:117-131 | when the scorers propose only known values, everything offered is known |
| Retrieval.FetchPk | extractor.py:162-183 | one key slot per value after wrapping a bare value; all `None` without a key column; otherwise each slot is the lookup response for the value at that position |
| Retrieval.KeyRepr | extractor.py:177-178 | Python's `repr` of a key cell inside the response text, defined by its body; Annotation.ParsePkRoundTrip states that cleaning the response gives back the key's text |
| Retrieval.PkResponse | extractor.py:177-178 | the text `db.run` answers for one key lookup, defined by its body; Retrieval.FetchPk places it at each position, and Annotation.ParsePkRoundTrip cleans it back to the key |
| Retrieval.SetupRetrievers | extractor.py:186-199 | one retriever per schema property, in schema order, each configured with that property's `items` |
| Reconcile.Indexed | extractor.py:287 | a list result is indexed by item, and a bare string by character: position i is its i-th character |
| Reconcile.Triage | extractor.py:286-302 | once no augmentation alias applied, the tests apply in order: a top match equal to the value keeps it; an empty result keeps the value; a single fuzzy match is accepted; otherwise the user is asked to choose among all the candidates |
| Reconcile.SameAsTop | extractor.py:287 | the test `top_matches[0] == value`, which on a bare string compares its first character; defined by its body, and Reconcile.Triage states that the value is kept when it holds |
| Reconcile.MenuIndex | extractor.py:310-311 | exactly the answers "1", "2" and "3" select a position, and it is the number typed |
| Reconcile.Pick | extractor.py:311 | the pick succeeds exactly when the menu had that many entries, and returns the entry at that position |
| Reconcile.Recheck | extractor.py:224-249 | "quit" in any case gives up after one answer; an empty table fails; a retyped value with no difflib match is asked for again; otherwise the next answer is the menu choice over that value's matches; running out of answers fails |
| Reconcile.Round | extractor.py:239-247 | a menu answer "1" to "3" picks the match at that position (or fails with `IndexError` when there is none), "5" gives up, and anything else starts the loop over |
| Reconcile.RecheckSkipsRetries | extractor.py:225-249 | retyped values with no difflib match leave no trace: the loop behaves as if the user had started after them |
| Reconcile.RecheckPicks | extractor.py:225-244 | after any number of retries, retyping a value and answering k gives the k-th difflib match of that value |
| Reconcile.Escalate | extractor.py:302-320 | answer "1" to "3" appends the candidate at that position (`IndexError` when there is none); "4" fails with `TypeError` as written and, corrected, appends the recheck's pick or keeps the value when the user gives up; any other answer keeps the original; no answers fails with `EndOfInput` |
| Reconcile.ReenterPicks | extractor.py:314-317 | corrected, answering "4", retyping a value and picking k appends the k-th difflib match of the retyped value |
| Reconcile.ReenterQuits | extractor.py:314-317 | corrected, answering "4" and then "quit" keeps the original value |
| Reconcile.ResolveValue | extractor.py:277-320 | each value is settled to something grounded in it, consuming a suffix of the answers; `TypeError` arises only as written |
| Reconcile.ResolveAll | extractor.py:275-321 | a completed property has exactly one resolved value per original value, each grounded in the original at the same position |
| Reconcile.UpdateDict | extractor.py:270-323 | a property with a retriever and a truthy value becomes a list aligned with the values it iterated; every other key, and the key order, is unchanged |
| Reconcile.UpdateStep | extractor.py:270-323 | handling one retriever and then the rest keeps every key aligned |
| Reconcile.CheckAndUpdateProperties | extractor.py:252-323 | every dictionary of the list comes out aligned with its original, and the answers are consumed in order across the whole list |
| Reconcile.ResolvedIsKnown | extractor.py:277-320 | a resolved value that is neither the original nor an augmentation canonical value is a known value, when the scorers propose only known values |
| Reconcile.AugmentationShortCircuits | extractor.py:278-282 | an augmentation hit is appended without consuming an answer, and the scorers' answers do not matter |
| Reconcile.Augments | extractor.py:278 | the test `if retriever.augmented_table`, defined by its body; Reconcile.AugmentationShortCircuits states what a hit does when it holds |
| Reconcile.CorrectedAcceptsSingle | extractor.py:295-300 | with the corrected top-match test, a single fuzzy match is appended without asking |
| Reconcile.ArsenalAutoAccepted | extractor.py:124 | a single candidate scoring 91 clears threshold 70 and is auto-accepted |
| Reconcile.FirstCharacterKeepsValue | extractor.py:287-289 | as written, the value "A" is kept because it equals the first character of its match "Arsenal"; corrected, "Arsenal" is appended |
| Reconcile.ReenterExample | extractor.py:314-316 | as written, answering "4" aborts with `TypeError`; corrected, the retyped value's difflib pick is appended |
| PropertyLists.LastSeen | extractor.py:332 | the reference value of a key is what the last dictionary holding it holds, and it is absent only when no dictionary holds the key |
| PropertyLists.DedupDict | extractor.py:330-335 | a dictionary never gains entries |
| PropertyLists.DedupDictSeen | extractor.py:335 | after a dictionary, `seen` holds that dictionary's value for each key it has, and what it held before for other keys |
| PropertyLists.DedupDictKept | extractor.py:332-335 | an entry is deleted exactly when `seen` already holds its value |
| PropertyLists.DedupDictEntries | extractor.py:330-335 | the kept entries are entries of the dictionary |
| PropertyLists.DedupDictFresh | extractor.py:330-335 | a dictionary none of whose entries `seen` holds is kept whole |
| PropertyLists.DedupFrom | extractor.py:329-335 | one dictionary out per dictionary in |
| PropertyLists.RemoveDuplicates | extractor.py:327-336 | one dictionary out per dictionary in |
| PropertyLists.DedupFromSpec | extractor.py:329-335 | a key is deleted from a dictionary exactly when its value equals what `seen` holds after the earlier dictionaries; nothing else changes |
| PropertyLists.RemoveDuplicatesSpec | extractor.py:327-336 | a key is deleted from the i-th dictionary exactly when the last earlier dictionary holding it held the same value |
| PropertyLists.RemoveDuplicatesKeepsFirst | extractor.py:327-336 | the first dictionary is unchanged, and no entry is ever added |
| PropertyLists.DedupFromEntries | extractor.py:329-335 | every dictionary keeps only entries it had |
| PropertyLists.PkKeyInjective | extractor.py:350 | `k + "_pk"` names one property only |
| PropertyLists.PkAttributes | extractor.py:344-351 | `<p>_pk` is present exactly for the properties that have both a value and a retriever, and holds that retriever's lookup of the value |
| PropertyLists.FetchPks | extractor.py:339-356 | one key dictionary per property dictionary, position by position |
| PropertyLists.FetchPksAligned | extractor.py:345-350 | a property with a retriever gets one key slot per value |
| Annotation.ParsePk | extractor.py:389 | the cleaned key has no quote and uses only characters of the response |
| Annotation.StripResponse | extractor.py:389 | stripping the brackets of a one-row response leaves the key's repr and the trailing comma |
| Annotation.FirstField | extractor.py:389 | the text before the first comma is the key's repr |
| Annotation.Unquote | extractor.py:389 | deleting the quotes of the repr leaves the key's text |
| Annotation.ParsePkRoundTrip | extractor.py:389 | cleaning the response of a key lookup gives back the key's text |
| Annotation.PkValue | extractor.py:387-389 | a string response gives a cleaned key and `None` stays `None`; a cleaned key has no quote and uses only characters of the response |
| Annotation.ParsePkEmpty | extractor.py:389 | a lookup with no row cleans to the empty, falsy key |
| Annotation.SevenRoundTrip | extractor.py:389 | the response "[(7,)]" cleans to "7" |
| Annotation.Line | extractor.py:391-398 | a position yields a line exactly when the value changed or a non-empty key is known |
| Annotation.Informative | extractor.py:393-398 | when a position produces a line, defined by its body; Annotation.Statement and Annotation.Info state that exactly the informative positions contribute lines |
| Annotation.Statement | extractor.py:386-398 | a position contributes a line exactly when it is informative |
| Annotation.Info | extractor.py:386-400 | the collected lines are empty exactly when no position is informative |
| Annotation.Zip3 | extractor.py:386 | the zip is as long as the shortest list, and position i holds the i-th element of each |
| Annotation.PropertyTriples | extractor.py:370-386 | the positions of one property, zipped from its wrapped original values, updated values and key responses; defined through Annotation.Zip3, whose contract states the truncation and the elementwise triples |
| Annotation.DictTriples | extractor.py:369-386 | the positions of one dictionary, property by property in key order; Annotation.DictTriplesUnchanged states that comparing a dictionary with itself pairs equal values |
| Annotation.Triples | extractor.py:368-386 | the positions of the whole list, over `zip(properties, pk, properties_original)`; Annotation.TriplesUnchanged states the same self-comparison over the list |
| Annotation.UpdatePromptEnhanced | extractor.py:366-405 | the prompt is always a prefix of the result; the result is the prompt exactly when no position is informative; otherwise it is the prompt, the heading and the lines |
| Annotation.DictTriplesUnchanged | extractor.py:369-386 | comparing a dictionary with itself pairs every value with itself |
| Annotation.TriplesUnchanged | extractor.py:368-386 | comparing a list with itself pairs every value with itself |
| Annotation.NothingToReport | extractor.py:393-403 | with nothing reconciled and no key known, the prompt goes out unchanged |
| Annotation.ArsenalTriples | extractor.py:368-386 | the Arsenal example has exactly one position |
| Annotation.ArsenalAnnotation | extractor.py:366-405 | "Arsnl" reconciled to "Arsenal" with key 7 appends the changed-with-key line |
| Annotation.OneTriple | extractor.py:400-403 | a single informative position gives exactly its line under the heading |
| Annotation.ArsenalLine | extractor.py:393-394 | a changed value with a key takes the first form of line |
| Annotation.UpdatePrompt | extractor.py:359-363 | a prompt without placeholders comes back unchanged |
| Annotation.UpdatePromptFills | extractor.py:359-363 | a template with one of each placeholder gets both texts in their places, whatever braces the rendered property list holds, as long as `{{pk}}` first occurs where the template put it |
| Annotation.FillProperties | extractor.py:361 | the first replacement puts the rendered property list in place of its placeholder and leaves the rest of the template as it was |
| Annotation.NoPropertiesAfter | extractor.py:361 | the properties placeholder does not occur in the rest of the template |
| Ingest.ClockOfParts | src/database.py:283-288 | unpacking the clock's pieces fails only with `ValueError` |
| Ingest.ClockSeconds | src/database.py:283-291 | a clock without ":" fails with `ValueError`, and no other failure is possible |
| Ingest.TimeOfHalves | src/database.py:282-288 | unpacking period and clock fails only with `ValueError` |
| Ingest.ConvertToSeconds | src/database.py:280-292 | a time without " - " fails with `ValueError`, and no other failure is possible |
| Ingest.ConvertToSecondsNeedsColon | src/database.py:283 | a time without ":" fails with `ValueError` |
| Ingest.GameTimeSplits | src/database.py:282-283 | a game time of digit strings splits into period and clock, and the clock into minutes and seconds |
| Ingest.ConvertToSecondsOfGameTime | src/database.py:280-292 | parsing "P - MM:SS" with digit strings, zero-padded or not, gives back the period and `MM*60+SS`, which is never negative |
| Ingest.ExtractTime | src/database.py:133-136 | the result is the prefix before the first apostrophe: it has none, the next character is one, and a time without an apostrophe is returned whole |
| Ingest.RenameLabel | src/database.py:237-243 | soccer-ball becomes "goal", y-card "yellow card" and r-card "red card"; every other label is unchanged, and no raw label survives |
| Ingest.RenameLabelIdempotent | src/database.py:237-243 | renaming twice is renaming once |
| Ingest.PlayerName | src/database.py:189-191 | a name without a space is stored as `"NULL "` followed by the name, a name with one is unchanged, so a stored player name always contains a space |
| Ingest.CoachStepAsWritten | src/database.py:220-224 | as written, the coach is stored under the name as read, while the `"NULL "`-prefixed name goes to the player-loop variable |
| Ingest.CoachName | src/database.py:220-224 | corrected, a coach name without a space is stored as `"NULL "` followed by the name, and a name with one is unchanged |
| Ingest.CoachPrefixExample | src/database.py:221-224 | "Mourinho" is stored without a space as written, and as "NULL Mourinho" corrected |
| Ingest.ScoreGoalsAsWritten | src/database.py:153-155 | as written, the goals are the first and last characters, and an empty score raises `IndexError` |
| Ingest.GoalsOfSides | src/database.py:153-155 | unpacking two score sides fails only with `ValueError` |
| Ingest.ScoreGoals | src/database.py:153-155 | corrected, a score without " - " fails with `ValueError`, and no other failure is possible |
| Ingest.ScoreGoalsRoundTrip | src/database.py:153-155 | corrected, the rendered score "h - a" gives back both counts |
| Ingest.TwoDigitScore | src/database.py:153-155 | "10 - 0" gives the home side "1" as written, and 10 corrected |
| Ingest.CaptionVisible | src/database.py:247-250 | a caption is visible exactly when its raw value is "shown" |
| Ingest.EventVisibleAsWritten | src/database.py:311-314 | as written, every event is stored as not visible |
| Ingest.EventVisible | src/database.py:311-314 | corrected, an event is visible exactly when its raw value is "visible" |
| Ingest.VisibleAnnotationExample | src/database.py:311-314 | a "visible" annotation is stored as not visible as written, and as visible corrected |
| Ingest.TeamFor | src/database.py:303-308 | "home" gives the home id, "away" the away id, and anything else the not-applicable team |
| Ingest.MatchesEvery | src/database.py:139 | a row passes `filter_by` exactly when it holds every keyword value |
| Ingest.Matches | src/database.py:139 | `filter_by(**kwargs)` on one row, defined by its body; Ingest.MatchesEvery states that a row passes exactly when it holds every keyword value |
| Ingest.FirstMatchFrom | src/database.py:139 | the position found matches and no earlier one does; none is found only when no row matches |
| Ingest.FirstMatch | src/database.py:139 | `.first()` is the first matching row, and there is none only when no row matches |
| Ingest.GetOrCreate | src/database.py:138-146 | with a match, the store is unchanged and the first match is returned; otherwise exactly the new row is appended and returned; the old store is always a prefix |
| Ingest.SelfMatches | src/database.py:143 | a row built from the keyword arguments matches them |
| Ingest.GetOrCreateMatches | src/database.py:138-146 | the returned row matches the keyword arguments |
| Ingest.GetOrCreateIdempotent | src/database.py:138-146 | a second call with the same arguments returns the same row and adds nothing |
| Ingest.FirstMatchAppend | src/database.py:139-145 | after an insertion into a store with no match, the new row is the first match |
| HumanMerge.Selected | app.py:207 | an abandoned prompt gives "", an answer gives its value, and an answer without a value gives `None` |
| HumanMerge.SelectFor | app.py:195-209 | an empty element raises `StopIteration` and one without candidates raises `KeyError`; otherwise the first key holds the selection, the candidates are gone, other keys are untouched and keys stay distinct |
| HumanMerge.MergeEntry | app.py:110-118 | a blank selection changes nothing; otherwise it is appended to its key's list, which is created when new; other keys are untouched |
| HumanMerge.HumanValidate | app.py:107-119 | what is passed on is a one-element list whose dictionary holds, for every key, its validated list followed by the selections recorded for it, element by element |
| HumanMerge.MergeItemSpec | app.py:109-118 | merging one element appends its recorded selection to each key |
| HumanMerge.MergeItem | app.py:109-118 | the inner loop over one answered element, defined by its body; HumanMerge.MergeItemSpec states that it appends the element's recorded selection to each key |
| HumanMerge.MergeAll | app.py:107-118 | the outer loop over the answered elements, defined by its body; HumanMerge.MergeAllSpec states the validated lists followed by the selections in element order |
| HumanMerge.MergeAllSpec | app.py:107-118 | every key's merged list is its validated list followed by its recorded selections in element order; a key with none is left as it was |
| HumanMerge.AbandonedPromptRecordsNothing | app.py:207-211 | a prompt with no answer leaves the key's validated list as it was |
| HumanMerge.ChosenValueAppended | app.py:207-212 | a chosen value ends up last in its key's validated list, after the earlier entries |

## Left out

- Entity extraction by the LLM (`Extractor`, `extract_properties`) is an opaque model call. The extracted property list is an input.
- The SQL agent (src/sql_chain.py) wraps remote language-model services and has no algorithmic content.
- The similarity scorers (thefuzz `process.extract` with limit 3, and `difflib.get_close_matches` with cutoff 0.2) are foreign library code. Their answers are oracle functions of the retriever's backend. A best-first ranking is a precondition only where `Matching.FuzzyStringFollowsPolicy` needs it.
- SQL text building, `db.run` and `ast.literal_eval` are I/O. Each query is replaced by the data it reads:
  - the column's cells;
  - the first key for a value;
  - the value for a key;
  - the augmentation rows.

  Quoting problems in the f-string SQL are not modelled. The one exception is the foreign key of an augmentation hit: it is spliced in as its unquoted text, and the value lookup is keyed by that text, so whether the query finds a row is up to the data.
- The orchestration in `prompt_cleaner` and `PromptCleaner.clean` (extractor.py:408-516) is not composed in the model; its steps are modelled one by one. That orchestration is: extract, copy, deduplicate, reconcile, fetch keys, annotate.
- The retriever's lazy caching of `query_as_list` (`self.response`) is not modelled. It changes no result.
- `print` output and menu text are not modelled. They are screen output only.
- `KnownValues.QueryAsList` (and `KnownValues.DistinctValues`, which computes its list): Python's `list(set(...))` leaves the order to the hash set. The model fixes one duplicate-free order (first occurrences), and its contract states only what every order shares.
- Characters are classified for ASCII only. `strip()` whitespace, the digits of `\d`, and the word characters of `\b` are ASCII, except that a non-ASCII, non-space character counts as a word character. SQL `LOWER` folds only ASCII letters, as SQLite's does.
- `Text.ParseInt` accepts what Python's `int()` accepts over ASCII: surrounding whitespace, one sign, digits with single underscores between them. Non-ASCII digits are not accepted.
- `Annotation.ParsePkRoundTrip`: stated only for integer keys and for text keys without a comma or quote. Python's `repr` would escape such characters, and the cleaning would mangle them.
- `Retrieval.SetupRetrievers`: a schema property without an `items` entry (a `KeyError` in the code) cannot be expressed, because the schema type always carries one.
- `get_or_create` keeps sessions, commits and autoincrement ids out of the model. Rows are their keyword values, and the store is the list of rows in insertion order.
- Only the pure fragments of `process_game_data` and `parse_labels_v2` are modelled. The remaining steps are not part of this model, because they are further database writes or field reads with no logic of their own:
  - the reads of referee, attendance, venue, round, position and importance;
  - the construction and saving of `Game`, `GameLineup`, `Player_Event`, `Caption` and `Event` rows.
- `process_ASR_data`, `process_json_files`, `fill_player_events` and `fill_Augmented_*` are left out. They involve file walks, CSV loading and float timestamps.
- The Chainlit handlers are left out: async steps, message sending and API-key state. `build_prompt_chainlit` and the validation step `validate_chainlit` are not part of this model. The merge result is what would be handed to `build_prompt_chainlit`.
- The unbounded loop of `recheck_property_value` needs no fuel. Every round consumes at least one answer, so the model's loop ends when the answers run out (`EndOfInput`).

## Findings

| source | as written | input that shows it | evidently intended | confidence | as-written member | corrected member |
|---|---|---|---|---|---|---|
| extractor.py:287 | `top_matches[0] == value` on an auto-accepted bare string compares the value with the match's first character | value "A", single fuzzy match "Arsenal": "A" is kept | compare the whole match, so the match is appended | high, not executed | Reconcile.FirstCharacterKeepsValue | Reconcile.CorrectedAcceptsSingle |
| extractor.py:316 | `recheck_property_value` is called with five arguments; it takes four | answers "4", "Arsenal", "1" for an escalated value: `TypeError` | re-enter a value, pick its match and append it | high, not executed | Reconcile.ReenterExample | Reconcile.ReenterPicks |
| src/database.py:221-224 | the `"NULL "` prefix is assigned to the player-loop variable; the coach is stored under the unprefixed name | coach "Mourinho" is stored without a space | prefix the coach's name like a player's | high, not executed | Ingest.CoachPrefixExample | Ingest.CoachName |
| src/database.py:311-314 | visibility is compared with "visible" twice, the second time as a boolean | raw value "visible" is stored as not visible | visible exactly for "visible" | high, not executed | Ingest.EventVisibleAsWritten | Ingest.EventVisible |
| src/database.py:153-155 | goal counts are the first and last characters of the score | score "10 - 0" gives the home side "1" | the numbers on either side of " - " | medium, not executed | Ingest.TwoDigitScore | Ingest.ScoreGoalsRoundTrip |

=== FILE: annotation.dfy ===
/** The prompt rewrite after reconciliation: `update_prompt_enhanced`
    (extractor.py:366-405), which appends one line per changed value or
    known key, and the template variant `update_prompt` (extractor.py:359-363). */
module Annotation {
  import opened Common
  import opened Text
  import opened Dicts
  import opened Retrieval

  /** One aligned position: the value the user wrote, the value it became, and
      the raw key lookup response for it (`None` for a property without keys). */
  datatype Triple = Triple(orig: string, updated: string, pk: Option<string>)

  /** The characters `strip("[]()")` removes. */
  predicate IsBracket(c: char) {
    c == '[' || c == ']' || c == '(' || c == ')'
  }

  /** The key text inside a raw lookup response: brackets stripped from the
      ends, the text before the first comma, quotes of both kinds deleted. */
  function ParsePk(response: string): (r: string)
    ensures '\'' !in r && '"' !in r
    ensures forall c :: c in r ==> c in response
  {
    var stripped := Strip(response, IsBracket);
    var fields := Split(stripped, ",");
    PartCharsInJoinAll(fields, ",", 0);
    var unquoted := Replace(fields[0], "'", "");
    DeleteChar(fields[0], '\'');
    var r := Replace(unquoted, "\"", "");
    DeleteChar(unquoted, '"');
    StripChars(response, IsBracket);
    r
  }

  lemma PartCharsInJoinAll(parts: seq<string>, sep: string, k: nat)
    requires k < |parts|
    ensures forall c :: c in parts[k] ==> c in Join(parts, sep)
  {
    forall c | c in parts[k] ensures c in Join(parts, sep) {
      var j :| 0 <= j < |parts[k]| && parts[k][j] == c;
      PartCharsInJoin(parts, sep, k, j);
    }
  }

  /** Stripping keeps a middle slice. */
  lemma StripChars(s: string, drop: char -> bool)
    ensures forall c :: c in Strip(s, drop) ==> c in s
  {
    var l := TrimLeft(s, drop);
    assert forall c :: c in l ==> c in s;
  }

  /** The text a key stands for once its response is cleaned. */
  function KeyText(k: Key): string {
    match k
    case IntKey(n) => IntToString(n)
    case TextKey(t) => t
  }

  /** A text key the cleaning cannot mangle: no comma and no quote inside. */
  predicate PlainKey(k: Key) {
    k.TextKey? ==> ',' !in k.t && '\'' !in k.t && '"' !in k.t
  }

  /** The characters of a key's `repr` and of its text. */
  lemma KeyReprChars(k: Key)
    requires PlainKey(k)
    ensures |KeyRepr(k)| > 0 && !IsBracket(KeyRepr(k)[0]) && !IsBracket(KeyRepr(k)[|KeyRepr(k)| - 1])
    ensures ',' !in KeyRepr(k)
    ensures k.IntKey? ==> '\'' !in KeyRepr(k) && '"' !in KeyRepr(k)
  {
    if k.IntKey? {
      assert KeyRepr(k)[0] in KeyRepr(k);
      assert KeyRepr(k)[|KeyRepr(k)| - 1] in KeyRepr(k);
    }
  }

  /** Stripping the brackets of a one-row response leaves the key's `repr` and the comma. */
  lemma StripResponse(k: Key)
    requires PlainKey(k)
    ensures Strip("[(" + KeyRepr(k) + ",)]", IsBracket) == KeyRepr(k) + ","
  {
    KeyReprChars(k);
    var body := KeyRepr(k) + ",";
    assert "[(" + KeyRepr(k) + ",)]" == "[(" + (body + ")]");
    TrimLeftPrefix("[(", body + ")]", IsBracket);
    TrimRightSuffix(body, ")]", IsBracket);
  }

  /** The text before the first comma is the key's `repr`. */
  lemma FirstField(k: Key)
    requires PlainKey(k)
    ensures Split(KeyRepr(k) + ",", ",")[0] == KeyRepr(k)
  {
    KeyReprChars(k);
    SplitAfter(KeyRepr(k), ",", "");
    assert KeyRepr(k) + "," == KeyRepr(k) + "," + "";
  }

  /** Deleting the quotes of a key's `repr` leaves its text. */
  lemma Unquote(k: Key)
    requires PlainKey(k)
    ensures Replace(Replace(KeyRepr(k), "'", ""), "\"", "") == KeyText(k)
  {
    KeyReprChars(k);
    match k
    case IntKey(n) =>
      ReplaceAbsent(IntToString(n), '\'', "");
      ReplaceAbsent(IntToString(n), '"', "");
    case TextKey(t) =>
      assert KeyRepr(k) == ['\''] + t + ['\''];
      ReplaceEnclosing(t, '\'');
      ReplaceAbsent(t, '"', "");
  }

  /** Cleaning a one-row lookup response gives back the key's text. */
  lemma ParsePkRoundTrip(k: Key)
    requires PlainKey(k)
    ensures ParsePk("[(" + KeyRepr(k) + ",)]") == KeyText(k)
  {
    StripResponse(k);
    FirstField(k);
    Unquote(k);
  }

  /** No row means an empty response, which cleans to the empty, falsy key. */
  lemma ParsePkEmpty()
    ensures ParsePk("") == ""
  {
    SplitNone("", ",");
    ReplaceAbsent("", '\'', "");
    ReplaceAbsent("", '"', "");
  }

  /** `pk_value` for one position: a string response is cleaned, `None` stays `None`. */
  function PkValue(detail: Option<string>): (v: Option<string>)
    ensures v.Some? <==> detail.Some?
    ensures v.Some? ==> '\'' !in v.value && '"' !in v.value
    ensures v.Some? ==> forall c :: c in v.value ==> c in detail.value
  {
    match detail
    case None => None
    case Some(s) => Some(ParsePk(s))
  }

  /** The position says something: the value changed, or a non-empty key is known. */
  predicate Informative(t: Triple) {
    t.orig != t.updated || (PkValue(t.pk).Some? && PkValue(t.pk).value != "")
  }

  /** The line for one position given its cleaned key, in the source's order
      of precedence: a change with a key, a change, a key, or nothing. */
  function Line(orig: string, updated: string, pk: Option<string>): (line: string)
    ensures |line| > 0 <==> orig != updated || (pk.Some? && pk.value != "")
  {
    var known := pk.Some? && pk.value != "";
    if orig != updated && known then
      "\n- " + orig + " (now referred to as " + updated + ") has a primary key: " + pk.value + "."
    else if orig != updated then
      "\n- " + orig + " (now referred to as " + updated + ")."
    else if known then
      "\n- " + orig + " has a primary key: " + pk.value + "."
    else ""
  }

  /** The line a position contributes. */
  function Statement(t: Triple): (line: string)
    ensures |line| > 0 <==> Informative(t)
  {
    Line(t.orig, t.updated, PkValue(t.pk))
  }

  /** `updated_info`: the lines of all positions, in order. */
  function Info(ts: seq<Triple>): (info: string)
    ensures info == "" <==> forall i :: 0 <= i < |ts| ==> !Informative(ts[i])
    decreases |ts|
  {
    if |ts| == 0 then ""
    else
      var rest := Info(ts[1..]);
      assert forall i :: 1 <= i < |ts| ==> ts[i] == ts[1..][i - 1];
      Statement(ts[0]) + rest
  }

  /** `zip` of three lists, truncated to the shortest. */
  function Zip3(a: seq<string>, b: seq<string>, c: seq<Option<string>>): (r: seq<Triple>)
    ensures |r| <= |a| && |r| <= |b| && |r| <= |c|
    ensures |r| == |a| || |r| == |b| || |r| == |c|
    ensures forall i :: 0 <= i < |r| ==> r[i] == Triple(a[i], b[i], c[i])
  {
    var n := if |a| <= |b| && |a| <= |c| then |a| else if |b| <= |c| then |b| else |c|;
    seq(n, i requires 0 <= i < n => Triple(a[i], b[i], c[i]))
  }

  /** The positions of one property: its original values, its updated values
      and its key responses, each wrapped into a list when bare. */
  function PropertyTriples(prop: Dict<Value>, pkInfo: Dict<seq<Option<string>>>, orig: Dict<Value>, key: string)
    : seq<Triple>
  {
    Zip3(AsList(Get(orig, key).GetOr(List([]))),
         AsList(Get(prop, key).GetOr(List([]))),
         Get(pkInfo, key + "_pk").GetOr([]))
  }

  /** The positions of one dictionary, property by property in its key order. */
  function DictTriples(prop: Dict<Value>, pkInfo: Dict<seq<Option<string>>>, orig: Dict<Value>, keys: seq<string>)
    : seq<Triple>
    decreases |keys|
  {
    if |keys| == 0 then []
    else PropertyTriples(prop, pkInfo, orig, keys[0]) + DictTriples(prop, pkInfo, orig, keys[1..])
  }

  /** The positions of the whole list: `zip(properties, pk, properties_original)`. */
  function Triples(props: seq<Dict<Value>>, pks: seq<Dict<seq<Option<string>>>>, origs: seq<Dict<Value>>)
    : seq<Triple>
    decreases |props|
  {
    if |props| == 0 || |pks| == 0 || |origs| == 0 then []
    else DictTriples(props[0], pks[0], origs[0], Keys(props[0])) + Triples(props[1..], pks[1..], origs[1..])
  }

  /** `update_prompt_enhanced`: the prompt, followed by an "Updated Information:"
      block when some position has something to say. */
  function UpdatePromptEnhanced(prompt: string, props: seq<Dict<Value>>,
                                pks: seq<Dict<seq<Option<string>>>>, origs: seq<Dict<Value>>)
    : (r: string)
    ensures |prompt| <= |r| && r[..|prompt|] == prompt
    ensures r == prompt <==> forall t :: t in Triples(props, pks, origs) ==> !Informative(t)
    ensures r != prompt ==> r == prompt + "\nUpdated Information:" + Info(Triples(props, pks, origs))
  {
    var ts := Triples(props, pks, origs);
    var info := Info(ts);
    if info != "" then prompt + "\nUpdated Information:" + info else prompt
  }

  /** Comparing a dictionary list with itself pairs every value with itself. */
  lemma {:induction false} DictTriplesUnchanged(prop: Dict<Value>, pkInfo: Dict<seq<Option<string>>>, keys: seq<string>)
    ensures forall t :: t in DictTriples(prop, pkInfo, prop, keys) ==> t.orig == t.updated
    decreases |keys|
  {
    if |keys| > 0 {
      DictTriplesUnchanged(prop, pkInfo, keys[1..]);
    }
  }

  lemma {:induction false} TriplesUnchanged(props: seq<Dict<Value>>, pks: seq<Dict<seq<Option<string>>>>)
    ensures forall t :: t in Triples(props, pks, props) ==> t.orig == t.updated
    decreases |props|
  {
    if |props| > 0 && |pks| > 0 {
      DictTriplesUnchanged(props[0], pks[0], Keys(props[0]));
      TriplesUnchanged(props[1..], pks[1..]);
    }
  }

  /** Nothing reconciled and no key known: the prompt goes out unchanged. */
  lemma NothingToReport(prompt: string, props: seq<Dict<Value>>, pks: seq<Dict<seq<Option<string>>>>)
    requires forall t :: t in Triples(props, pks, props) ==> PkValue(t.pk).None? || PkValue(t.pk).value == ""
    ensures UpdatePromptEnhanced(prompt, props, pks, props) == prompt
  {
    TriplesUnchanged(props, pks);
  }

  /** The key 7 comes back as "7". */
  lemma SevenRoundTrip()
    ensures ParsePk("[(7,)]") == "7"
  {
    assert NatToString(7) == "7";
    assert KeyRepr(IntKey(7)) == "7" && KeyText(IntKey(7)) == "7";
    assert "[(" + KeyRepr(IntKey(7)) + ",)]" == "[(7,)]";
    ParsePkRoundTrip(IntKey(7));
  }

  /** The one position of the Arsenal example. */
  lemma ArsenalTriples()
    ensures Triples([[("team", List(["Arsenal"]))]], [[("team_pk", [Some("[(7,)]")])]], [[("team", List(["Arsnl"]))]])
            == [Triple("Arsnl", "Arsenal", Some("[(7,)]"))]
  {
    var props: seq<Dict<Value>> := [[("team", List(["Arsenal"]))]];
    var pks: seq<Dict<seq<Option<string>>>> := [[("team_pk", [Some("[(7,)]")])]];
    var origs: seq<Dict<Value>> := [[("team", List(["Arsnl"]))]];
    assert Keys(props[0]) == ["team"];
    assert Get(pks[0], "team" + "_pk") == Some([Some("[(7,)]")]);
    assert PropertyTriples(props[0], pks[0], origs[0], "team") == [Triple("Arsnl", "Arsenal", Some("[(7,)]"))];
    assert DictTriples(props[0], pks[0], origs[0], ["team"]) == [Triple("Arsnl", "Arsenal", Some("[(7,)]"))];
  }

  /** A misspelt team reconciled to its canonical name with key 7. */
  lemma ArsenalAnnotation(prompt: string, props: seq<Dict<Value>>, pks: seq<Dict<seq<Option<string>>>>,
                          origs: seq<Dict<Value>>)
    requires props == [[("team", List(["Arsenal"]))]]
    requires pks == [[("team_pk", [Some("[(7,)]")])]]
    requires origs == [[("team", List(["Arsnl"]))]]
    ensures UpdatePromptEnhanced(prompt, props, pks, origs)
            == prompt + "\nUpdated Information:"
               + ("\n- " + "Arsnl" + " (now referred to as " + "Arsenal" + ") has a primary key: " + "7" + ".")
  {
    var t := Triple("Arsnl", "Arsenal", Some("[(7,)]"));
    SevenRoundTrip();
    assert PkValue(t.pk) == Some("7");
    ArsenalLine();
    ArsenalTriples();
    assert Informative(t) by { assert |"Arsnl"| != |"Arsenal"|; }
    OneTriple(prompt, props, pks, origs, t);
  }

  /** A list with one informative position gets exactly that position's line. */
  lemma OneTriple(prompt: string, props: seq<Dict<Value>>, pks: seq<Dict<seq<Option<string>>>>,
                  origs: seq<Dict<Value>>, t: Triple)
    requires Triples(props, pks, origs) == [t] && Informative(t)
    ensures UpdatePromptEnhanced(prompt, props, pks, origs) == prompt + "\nUpdated Information:" + Statement(t)
  {
    assert Info([t]) == Statement(t) + Info([]);
  }

  lemma ArsenalLine()
    ensures Line("Arsnl", "Arsenal", Some("7"))
            == "\n- " + "Arsnl" + " (now referred to as " + "Arsenal" + ") has a primary key: " + "7" + "."
  {
    assert |"Arsnl"| != |"Arsenal"|;
  }

  /** `update_prompt`: the `{{properties}}` and `{{pk}}` placeholders are
      replaced by the rendered property and key lists (their `str()` is the
      caller's `propertiesText` and `pkText`). */
  function UpdatePrompt(prompt: string, propertiesText: string, pkText: string): (r: string)
    ensures !Contains(prompt, "{{properties}}") && !Contains(prompt, "{{pk}}") ==> r == prompt
  {
    var filled := Replace(prompt, "{{properties}}", propertiesText);
    Replace(filled, "{{pk}}", pkText)
  }

  /** A template with one of each placeholder gets both texts in their places.
      The rendered property list may hold braces of its own; what matters is
      that `{{pk}}` first occurs where the template put it. */
  lemma UpdatePromptFills(a: string, b: string, c: string, propertiesText: string, pkText: string)
    requires '{' !in a && '{' !in b && !Contains(c, "{{properties}}") && !Contains(c, "{{pk}}")
    requires Find(a + propertiesText + b + "{{pk}}" + c, "{{pk}}") == Some(|a + propertiesText + b|)
    ensures UpdatePrompt(a + "{{properties}}" + b + "{{pk}}" + c, propertiesText, pkText)
            == a + propertiesText + b + pkText + c
  {
    FillProperties(a, b, c, propertiesText);
    ReplaceFirst(a + propertiesText + b, "{{pk}}", c, pkText);
  }

  /** The first replacement: the properties placeholder takes the rendered list. */
  lemma FillProperties(a: string, b: string, c: string, propertiesText: string)
    requires '{' !in a && '{' !in b && !Contains(c, "{{properties}}")
    ensures Replace(a + "{{properties}}" + b + "{{pk}}" + c, "{{properties}}", propertiesText)
            == a + propertiesText + b + "{{pk}}" + c
  {
    var tail := b + "{{pk}}" + c;
    assert a + "{{properties}}" + b + "{{pk}}" + c == a + "{{properties}}" + tail;
    assert a + propertiesText + tail == a + propertiesText + b + "{{pk}}" + c;
    NoPropertiesAfter(b, c);
    ReplaceOnce(a, "{{properties}}", tail, propertiesText);
  }

  /** `{{properties}}` does not occur in `b + "{{pk}}" + c` when `b` has no
      brace and `c` does not hold it. */
  lemma NoPropertiesAfter(b: string, c: string)
    requires '{' !in b && !Contains(c, "{{properties}}")
    ensures Split(b + "{{pk}}" + c, "{{properties}}") == [b + "{{pk}}" + c]
  {
    var s := b + "{{pk}}" + c;
    var sep := "{{properties}}";
    forall j | 0 <= j && j + |sep| <= |s| ensures !OccursAt(s, sep, j) {
      var w := s[j..j + |sep|];
      if j == |b| {
        assert w[3] == s[j + 3] == 'k';
      } else if j == |b| + 1 {
        assert w[1] == s[j + 1] == 'p';
      } else if j < |b| {
        assert w[0] == s[j] == b[j];
      } else if j < |b| + 6 {
        assert w[0] == s[j] == "{{pk}}"[j - |b|];
      } else {
        assert s[j..j + |sep|] == c[j - |b| - 6..j - |b| - 6 + |sep|];
        assert !OccursAt(c, sep, j - |b| - 6);
      }
    }
    assert !Contains(s, sep);
  }
}

=== FILE: common.dfy ===
/** Failure-compatible wrappers shared by every module of the model, and the
    exceptions the modelled Python code can raise. */
module Common {

  /** Python's `None` or a present value. */
  datatype Option<+T> = None | Some(value: T) {

    /** The value, or `default` when absent (Python's `x if x else default`). */
    function GetOr(default: T): T {
      match this
      case Some(v) => v
      case None => default
    }
  }

  /** The outcome of an operation that may raise. */
  datatype Result<+T, +E> = Success(value: T) | Failure(error: E)

  /** The exceptions the modelled code can raise; each aborts the whole pass. */
  datatype Error =
    | DataAccess   // a query the database rejects, or an empty response handed to `ast.literal_eval`
    | IndexError   // a list or string index out of range
    | TypeError    // a call with the wrong number of arguments
    | ValueError   // `int()` or tuple unpacking on a malformed string
    | EndOfInput   // `input()` with no answer left
    | KeyError     // indexing a dictionary with a key it does not hold
    | StopIteration // `next()` on an exhausted iterator
}

=== FILE: dicts.dfy ===
/** Python dictionaries with string keys, and the values the soccer-rag
    extractor stores in them. A dict is kept as its insertion-ordered list of
    entries, because the order of annotation lines and of the questions put to
    the user follows it. */
module Dicts {
  import opened Common

  type Dict<V> = seq<(string, V)>

  /** What the extraction step and the reconciler store under a property name:
      normally a list of strings, sometimes a bare string. */
  datatype Value = Str(s: string) | List(items: seq<string>)

  /** `v if isinstance(v, list) else [v]`: a bare string becomes a one-element list. */
  function AsList(v: Value): (r: seq<string>)
    ensures v.Str? ==> r == [v.s]
    ensures v.List? ==> r == v.items
  {
    match v
    case Str(s) => [s]
    case List(items) => items
  }

  /** What `for x in v` yields: the items of a list, the one-character strings of a bare string. */
  function Iterated(v: Value): (r: seq<string>)
    ensures v.List? ==> r == v.items
    ensures v.Str? ==> |r| == |v.s| && forall i :: 0 <= i < |r| ==> r[i] == [v.s[i]]
  {
    match v
    case Str(s) => seq(|s|, i requires 0 <= i < |s| => [s[i]])
    case List(items) => items
  }

  /** Python truthiness of a value: a non-empty string or list. */
  predicate Truthy(v: Value) {
    match v
    case Str(s) => |s| > 0
    case List(items) => |items| > 0
  }

  /** `list(d.keys())`. */
  function Keys<V>(d: Dict<V>): (ks: seq<string>)
    ensures |ks| == |d|
    ensures forall i :: 0 <= i < |d| ==> ks[i] == d[i].0
    decreases |d|
  {
    if |d| == 0 then [] else [d[0].0] + Keys(d[1..])
  }

  /** No key appears twice: every Python dict satisfies this. */
  ghost predicate Distinct<V>(d: Dict<V>) {
    forall i, j :: 0 <= i < j < |d| ==> d[i].0 != d[j].0
  }

  /** `d.get(k)`. */
  function Get<V>(d: Dict<V>, k: string): (r: Option<V>)
    ensures r.Some? <==> k in Keys(d)
    ensures r.Some? ==> (k, r.value) in d
    ensures r.None? ==> forall i :: 0 <= i < |d| ==> d[i].0 != k
    decreases |d|
  {
    if |d| == 0 then None
    else if d[0].0 == k then Some(d[0].1)
    else
      var r := Get(d[1..], k);
      assert Keys(d) == [d[0].0] + Keys(d[1..]);
      r
  }

  /** With distinct keys, the entry at position `i` is what `d[d[i].0]` reads. */
  lemma {:induction false} GetAt<V>(d: Dict<V>, i: nat)
    requires Distinct(d) && i < |d|
    ensures Get(d, d[i].0) == Some(d[i].1)
    decreases i
  {
    if i > 0 {
      GetAt(d[1..], i - 1);
    }
  }

  /** `d[k] = v`: an existing key keeps its position, a new key goes last
      (the order is stated by `PutKeys`). */
  function Put<V>(d: Dict<V>, k: string, v: V): (r: Dict<V>)
    ensures Get(r, k) == Some(v)
    ensures forall k' :: k' != k ==> Get(r, k') == Get(d, k')
    decreases |d|
  {
    if |d| == 0 then [(k, v)]
    else if d[0].0 == k then
      var r := [(k, v)] + d[1..];
      assert r[1..] == d[1..];
      r
    else
      var rest := Put(d[1..], k, v);
      var r := [d[0]] + rest;
      assert r[1..] == rest;
      r
  }

  lemma {:induction false} PutKeys<V>(d: Dict<V>, k: string, v: V)
    ensures k in Keys(d) ==> Keys(Put(d, k, v)) == Keys(d)
    ensures k !in Keys(d) ==> Keys(Put(d, k, v)) == Keys(d) + [k]
    decreases |d|
  {
    if |d| > 0 && d[0].0 != k {
      PutKeys(d[1..], k, v);
      var rest := Put(d[1..], k, v);
      assert Put(d, k, v) == [d[0]] + rest;
      assert Keys(d) == [d[0].0] + Keys(d[1..]);
      assert Keys([d[0]] + rest) == [d[0].0] + Keys(rest);
    } else if |d| > 0 {
      assert Keys(Put(d, k, v)) == Keys(d);
    }
  }

  lemma PutDistinct<V>(d: Dict<V>, k: string, v: V)
    requires Distinct(d)
    ensures Distinct(Put(d, k, v))
  {
    var r := Put(d, k, v);
    PutKeys(d, k, v);
    var kd, kr := Keys(d), Keys(r);
    if k in kd {
      forall i, j | 0 <= i < j < |r| ensures r[i].0 != r[j].0 {
        assert r[i].0 == kr[i] == kd[i] == d[i].0;
        assert r[j].0 == kr[j] == kd[j] == d[j].0;
      }
    } else {
      forall i, j | 0 <= i < j < |r| ensures r[i].0 != r[j].0 {
        assert r[i].0 == kr[i] == kd[i] == d[i].0;
        if j < |d| {
          assert r[j].0 == kr[j] == kd[j] == d[j].0;
        } else {
          assert r[j].0 == kr[j] == k;
        }
      }
    }
  }

  /** `del d[k]` (or `d.pop(k)`): every other entry keeps its value and order. */
  function Delete<V>(d: Dict<V>, k: string): (r: Dict<V>)
    ensures Get(r, k) == None
    ensures forall k' :: k' != k ==> Get(r, k') == Get(d, k')
    ensures forall e :: e in r ==> e in d
    ensures Distinct(d) ==> Distinct(r)
    decreases |d|
  {
    if |d| == 0 then []
    else if d[0].0 == k then Delete(d[1..], k)
    else
      var rest := Delete(d[1..], k);
      assert forall i :: 0 <= i < |rest| ==> rest[i] in d[1..];
      [d[0]] + rest
  }

  /** The entries after the first of a dictionary form a dictionary without its first key. */
  lemma DistinctTail<V>(d: Dict<V>)
    requires Distinct(d) && |d| > 0
    ensures Distinct(d[1..]) && Get(d[1..], d[0].0).None?
    ensures forall k :: k != d[0].0 ==> Get(d, k) == Get(d[1..], k)
  {
    forall i | 0 <= i < |d| - 1 ensures d[1..][i].0 != d[0].0 {
      assert d[1..][i] == d[i + 1];
    }
  }
}

=== FILE: human_merge.dfy ===
/** The human-in-the-loop step of the chat front end (app.py): recording the
    user's choice in each element that needed input, then merging those
    choices into the validated properties. The prompts themselves are
    replaced by their answers. */
module HumanMerge {
  import opened Common
  import opened Dicts

  /** A value an element that needs input can hold: text, Python `None`,
      or the list of candidates under `top_matches`. */
  datatype Entry = Text(s: string) | Nothing | Options(items: seq<string>)

  /** `res.get("value") if res else ""`: an abandoned prompt (no answer, or
      an empty answer dictionary) gives the empty string; an answer without
      a `value` field gives `None`. */
  function Selected(res: Option<Dict<string>>): (e: Entry)
    ensures (res.None? || |res.value| == 0) ==> e == Text("")
    ensures res.Some? && |res.value| > 0 && "value" in Keys(res.value) ==> e == Text(Get(res.value, "value").value)
    ensures res.Some? && |res.value| > 0 && "value" !in Keys(res.value) ==> e == Nothing
  {
    if res.None? || |res.value| == 0 then Text("")
    else
      match Get(res.value, "value")
      case Some(v) => Text(v)
      case None => Nothing
  }

  /** One round of the loop in `main`: the first key of `element` gets the
      user's answer and the candidate list is removed. Taking the first key
      of an empty dictionary and reading a missing `top_matches` both raise. */
  function SelectFor(element: Dict<Entry>, res: Option<Dict<string>>): (r: Result<Dict<Entry>, Error>)
    ensures |element| == 0 ==> r == Failure(StopIteration)
    ensures |element| > 0 && "top_matches" !in Keys(element) ==> r == Failure(KeyError)
    ensures r.Success? ==>
              && |element| > 0
              && Get(r.value, "top_matches").None?
              && (element[0].0 != "top_matches" ==> Get(r.value, element[0].0) == Some(Selected(res)))
              && (forall k :: k != element[0].0 && k != "top_matches" ==> Get(r.value, k) == Get(element, k))
    ensures r.Success? && Distinct(element) ==> Distinct(r.value)
  {
    if |element| == 0 then Failure(StopIteration)
    else if Get(element, "top_matches").None? then Failure(KeyError)
    else
      var key := element[0].0;
      var chosen := Put(element, key, Selected(res));
      PutDistinctWhen(element, key, Selected(res));
      Success(Delete(chosen, "top_matches"))
  }

  /** `Put` keeps a dictionary free of repeated keys. */
  lemma PutDistinctWhen<V>(d: Dict<V>, k: string, v: V)
    ensures Distinct(d) ==> Distinct(Put(d, k, v))
  {
    if Distinct(d) {
      PutDistinct(d, k, v);
    }
  }

  /** Whether a selection is recorded: empty strings are skipped. */
  predicate Recorded(e: Entry) {
    e != Text("")
  }

  /** One key-value pair of the merge: skipped when blank, appended to the
      key's list when the key is known, otherwise a new one-element list. */
  function MergeEntry(validated: Dict<seq<Entry>>, key: string, value: Entry): (r: Dict<seq<Entry>>)
    ensures forall k :: k != key ==> Get(r, k) == Get(validated, k)
    ensures Get(r, key) == (if Recorded(value) then Some(Get(validated, key).GetOr([]) + [value]) else Get(validated, key))
  {
    if !Recorded(value) then validated
    else
      match Get(validated, key)
      case Some(values) => Put(validated, key, values + [value])
      case None =>
        assert Get(validated, key).GetOr([]) + [value] == [value];
        Put(validated, key, [value])
  }

  /** The inner loop of `human_validate_func`, over one answered element. */
  function MergeItem(validated: Dict<seq<Entry>>, item: Dict<Entry>): Dict<seq<Entry>>
    decreases |item|
  {
    if |item| == 0 then validated
    else MergeItem(MergeEntry(validated, item[0].0, item[0].1), item[1..])
  }

  /** The outer loop, over all answered elements in order. */
  function MergeAll(validated: Dict<seq<Entry>>, human: seq<Dict<Entry>>): Dict<seq<Entry>>
    decreases |human|
  {
    if |human| == 0 then validated
    else MergeAll(MergeItem(validated, human[0]), human[1..])
  }

  /** `human_validate_func` up to building the prompt: the merged dictionary,
      wrapped in a one-element list. Every key's list is its validated list
      followed by the selections recorded for it, element by element. */
  function HumanValidate(human: seq<Dict<Entry>>, validated: Dict<seq<Entry>>): (r: seq<Dict<seq<Entry>>>)
    requires forall i :: 0 <= i < |human| ==> Distinct(human[i])
    ensures |r| == 1
    ensures forall k :: Get(r[0], k) == Extended(Get(validated, k), Selections(human, k))
  {
    var merged := MergeAll(validated, human);
    forall k ensures Get(merged, k) == Extended(Get(validated, k), Selections(human, k)) {
      MergeAllSpec(validated, human, k);
    }
    [merged]
  }

  /** Reference definition: the recorded selection one element holds for `k`. */
  function RecordedIn(item: Dict<Entry>, k: string): seq<Entry> {
    match Get(item, k)
    case Some(e) => if Recorded(e) then [e] else []
    case None => []
  }

  /** Reference definition: the recorded selections for `k`, element by element. */
  function Selections(human: seq<Dict<Entry>>, k: string): seq<Entry>
    decreases |human|
  {
    if |human| == 0 then [] else RecordedIn(human[0], k) + Selections(human[1..], k)
  }

  /** A key's list after appending `more`; a key with nothing appended is left as it was. */
  function Extended(before: Option<seq<Entry>>, more: seq<Entry>): Option<seq<Entry>> {
    if |more| == 0 then before else Some(before.GetOr([]) + more)
  }

  lemma ExtendedTwice(o: Option<seq<Entry>>, a: seq<Entry>, b: seq<Entry>)
    ensures Extended(Extended(o, a), b) == Extended(o, a + b)
  {
    if |a| == 0 {
      assert a + b == b;
    } else if |b| == 0 {
      assert a + b == a;
    } else {
      assert o.GetOr([]) + a + b == o.GetOr([]) + (a + b);
    }
  }

  /** Merging one element appends its recorded selection for each key. */
  lemma {:induction false} MergeItemSpec(validated: Dict<seq<Entry>>, item: Dict<Entry>, k: string)
    requires Distinct(item)
    ensures Get(MergeItem(validated, item), k) == Extended(Get(validated, k), RecordedIn(item, k))
    decreases |item|
  {
    if |item| > 0 {
      DistinctTail(item);
      var next := MergeEntry(validated, item[0].0, item[0].1);
      MergeItemSpec(next, item[1..], k);
      if k == item[0].0 {
        assert RecordedIn(item[1..], k) == [];
      } else {
        assert RecordedIn(item, k) == RecordedIn(item[1..], k);
      }
    }
  }

  /** The merged list of every key is its validated list followed by the
      recorded selections for it, in the order of the elements; a key with
      no recorded selection is left as it was. */
  lemma {:induction false} MergeAllSpec(validated: Dict<seq<Entry>>, human: seq<Dict<Entry>>, k: string)
    requires forall i :: 0 <= i < |human| ==> Distinct(human[i])
    ensures Get(MergeAll(validated, human), k) == Extended(Get(validated, k), Selections(human, k))
    decreases |human|
  {
    if |human| > 0 {
      MergeItemSpec(validated, human[0], k);
      MergeAllSpec(MergeItem(validated, human[0]), human[1..], k);
      ExtendedTwice(Get(validated, k), RecordedIn(human[0], k), Selections(human[1..], k));
    }
  }

  /** A prompt the user abandons records nothing for its key. */
  lemma AbandonedPromptRecordsNothing(element: Dict<Entry>, validated: Dict<seq<Entry>>)
    requires Distinct(element) && SelectFor(element, None).Success?
    requires element[0].0 != "top_matches"
    ensures var answered := SelectFor(element, None).value;
            Get(HumanValidate([answered], validated)[0], element[0].0) == Get(validated, element[0].0)
  {
    var key := element[0].0;
    var answered := SelectFor(element, None).value;
    assert Distinct(answered);
    assert RecordedIn(answered, key) == [];
    SelectionsOfOne(answered, key);
  }

  /** The selections of a single answered element are those it records. */
  lemma SelectionsOfOne(item: Dict<Entry>, k: string)
    ensures Selections([item], k) == RecordedIn(item, k)
  {
    assert [item][1..] == [];
    assert RecordedIn(item, k) + [] == RecordedIn(item, k);
  }

  /** A chosen value is appended to the key's validated list. */
  lemma ChosenValueAppended(element: Dict<Entry>, validated: Dict<seq<Entry>>, choice: string)
    requires Distinct(element) && SelectFor(element, Some([("value", choice)])).Success?
    requires element[0].0 != "top_matches" && choice != ""
    ensures var answered := SelectFor(element, Some([("value", choice)])).value;
            Get(HumanValidate([answered], validated)[0], element[0].0)
              == Some(Get(validated, element[0].0).GetOr([]) + [Text(choice)])
  {
    var res: Option<Dict<string>> := Some([("value", choice)]);
    assert Get(res.value, "value") == Some(choice);
    var key := element[0].0;
    var answered := SelectFor(element, res).value;
    assert Distinct(answered);
    assert RecordedIn(answered, key) == [Text(choice)];
    SelectionsOfOne(answered, key);
  }
}

=== FILE: ingest.dfy ===
/** The pure fragments of the SoccerNet loader (src/database.py): game-time
    parsing, the player-event time prefix, label renaming, player-name
    prefixing, the score split, the visibility flags, the team choice of an
    annotation, and `get_or_create` over an abstract table. Sessions, commits
    and the ORM classes are not modelled. */
module Ingest {
  import opened Common
  import opened Text
  import opened Dicts

  /** `pat` occurring in the second half of `a + sep + b` occurs in the whole. */
  lemma OccursAfter(a: string, sep: string, b: string, pat: string, j: int)
    requires OccursAt(b, pat, j)
    ensures OccursAt(a + sep + b, pat, |a| + |sep| + j)
  {
    var s := a + sep + b;
    assert s[|a| + |sep|..] == b;
    assert s[|a| + |sep| + j..|a| + |sep| + j + |pat|] == b[j..j + |pat|];
  }

  /** `(minutes * 60) + seconds`. */
  function Seconds(minutes: int, seconds: int): int {
    minutes * 60 + seconds
  }

  /** Unpacking `time.split(":")` into minutes and seconds and converting both. */
  function ClockOfParts(parts: seq<string>): (r: Result<int, Error>)
    ensures r.Failure? ==> r.error == ValueError
  {
    if |parts| != 2 then Failure(ValueError)
    else
      var minutes, seconds := ParseInt(parts[0]), ParseInt(parts[1]);
      if minutes.None? || seconds.None? then Failure(ValueError)
      else Success(Seconds(minutes.value, seconds.value))
  }

  /** The `"MM:SS"` half of a game time as seconds. */
  function ClockSeconds(clock: string): (r: Result<int, Error>)
    ensures !Contains(clock, ":") ==> r == Failure(ValueError)
    ensures r.Failure? ==> r.error == ValueError
  {
    ClockOfParts(Split(clock, ":"))
  }

  /** Unpacking `time_str.split(" - ")` into period and clock and converting both. */
  function TimeOfHalves(halves: seq<string>): (r: Result<(int, int), Error>)
    ensures r.Failure? ==> r.error == ValueError
  {
    if |halves| != 2 then Failure(ValueError)
    else
      var period, total := ParseInt(halves[0]), ClockSeconds(halves[1]);
      if period.None? || total.Failure? then Failure(ValueError)
      else Success((period.value, total.value))
  }

  /** `convert_to_seconds`: `"P - MM:SS"` becomes the period and the seconds
      into it. Unpacking a split into the wrong number of pieces and `int()`
      on a malformed piece both raise `ValueError`. */
  function ConvertToSeconds(timeStr: string): (r: Result<(int, int), Error>)
    ensures !Contains(timeStr, " - ") ==> r == Failure(ValueError)
    ensures r.Failure? ==> r.error == ValueError
  {
    TimeOfHalves(Split(timeStr, " - "))
  }

  /** A game time with no colon is rejected. */
  lemma ConvertToSecondsNeedsColon(timeStr: string)
    requires !Contains(timeStr, ":")
    ensures ConvertToSeconds(timeStr) == Failure(ValueError)
  {
    var halves := Split(timeStr, " - ");
    if |halves| == 2 {
      assert timeStr == halves[0] + " - " + halves[1] by {
        assert Join(halves, " - ") == halves[0] + " - " + Join(halves[1..], " - ");
      }
      forall j | OccursAt(halves[1], ":", j) ensures false {
        OccursAfter(halves[0], " - ", halves[1], ":", j);
      }
    }
  }

  /** The text the loader reads: period, minutes and seconds as digit strings,
      the minutes and seconds usually zero-padded (`"1 - 05:07"`). */
  function GameTime(p: string, mm: string, ss: string): string {
    p + " - " + mm + ":" + ss
  }

  /** The digits of an integer hold neither a space nor a colon. */
  lemma IntToStringPlain(n: int)
    ensures ' ' !in IntToString(n) && ':' !in IntToString(n)
  {
  }

  /** A digit string holds neither a space nor a colon. */
  lemma DigitsPlain(b: string)
    requires WellFormedDigits(b)
    ensures ' ' !in b && ':' !in b
  {
    forall i | 0 <= i < |b| ensures b[i] != ' ' && b[i] != ':' {
      DigitOrUnderscore(b, i);
    }
  }

  lemma DigitOrUnderscore(b: string, i: int)
    requires WellFormedDigits(b) && 0 <= i < |b|
    ensures IsDigit(b[i]) || b[i] == '_'
  {
    assert IsDigit(b[i]) || (b[i] == '_' && i + 1 < |b| && IsDigit(b[i + 1]));
  }

  /** The two cuts `convert_to_seconds` makes in a well-formed game time. */
  lemma GameTimeSplits(p: string, mm: string, ss: string)
    requires WellFormedDigits(p) && WellFormedDigits(mm) && WellFormedDigits(ss)
    ensures Split(GameTime(p, mm, ss), " - ") == [p, mm + ":" + ss]
    ensures Split(mm + ":" + ss, ":") == [mm, ss]
  {
    var clock := mm + ":" + ss;
    assert GameTime(p, mm, ss) == p + " - " + clock;
    assert Split(GameTime(p, mm, ss), " - ") == [p, clock] by {
      DigitsPlain(p);
      DigitsPlain(mm);
      DigitsPlain(ss);
      assert ' ' !in clock;
      SplitAround(p, " - ", clock);
    }
    assert Split(clock, ":") == [mm, ss] by {
      DigitsPlain(mm);
      DigitsPlain(ss);
      SplitAround(mm, ":", ss);
    }
  }

  /** A separator whose first character occurs on neither side splits there only. */
  lemma SplitAround(a: string, sep: string, b: string)
    requires |sep| > 0 && sep[0] !in a && sep[0] !in b
    ensures Split(a + sep + b, sep) == [a, b]
  {
    SplitAfter(a, sep, b);
    SplitNone(b, sep);
  }

  /** Parsing a well-formed game time gives back its period and
      `MM * 60 + SS`, leading zeros and all, which is never negative. */
  lemma ConvertToSecondsOfGameTime(p: string, mm: string, ss: string)
    requires WellFormedDigits(p) && WellFormedDigits(mm) && WellFormedDigits(ss)
    ensures ConvertToSeconds(GameTime(p, mm, ss))
            == Success((DigitsValue(p) as int, Seconds(DigitsValue(mm), DigitsValue(ss))))
    ensures Seconds(DigitsValue(mm), DigitsValue(ss)) >= 0
  {
    var clock := mm + ":" + ss;
    GameTimeSplits(p, mm, ss);
    ParseIntUnsigned(p);
    ParseIntUnsigned(mm);
    ParseIntUnsigned(ss);
    ClockOfNumbers(mm, ss, DigitsValue(mm), DigitsValue(ss));
    TimeOfNumbers(p, clock, DigitsValue(p), Seconds(DigitsValue(mm), DigitsValue(ss)));
  }

  lemma TimeOfNumbers(period: string, clock: string, p: int, total: int)
    requires ParseInt(period) == Some(p) && ClockSeconds(clock) == Success(total)
    ensures TimeOfHalves([period, clock]) == Success((p, total))
  {
  }

  lemma ClockOfNumbers(a: string, b: string, x: int, y: int)
    requires ParseInt(a) == Some(x) && ParseInt(b) == Some(y)
    ensures ClockOfParts([a, b]) == Success(Seconds(x, y))
  {
  }

  /** `extract_time_from_player_event`: the text before the first apostrophe,
      kept as text because of stoppage times such as `45+2'`. */
  function ExtractTime(time: string): (r: string)
    ensures |r| <= |time| && r == time[..|r|]
    ensures '\'' !in r
    ensures |r| < |time| ==> time[|r|] == '\''
    ensures '\'' !in time ==> r == time
  {
    var parts := Split(time, "'");
    var r := parts[0];
    forall j | 0 <= j < |r| ensures r[j] != '\'' {
      assert !OccursAt(r, "'", j);
      assert r[j..j + 1] == [r[j]];
    }
    match Find(time, "'")
    case None =>
      assert r == time;
      r
    case Some(i) =>
      assert r == time[..i];
      assert time[i..i + 1] == "'";
      r
  }

  /** The caption label renaming of `process_game_data`. */
  function RenameLabel(name: string): (r: string)
    ensures name == "soccer-ball" ==> r == "goal"
    ensures name == "y-card" ==> r == "yellow card"
    ensures name == "r-card" ==> r == "red card"
    ensures name != "soccer-ball" && name != "y-card" && name != "r-card" ==> r == name
    ensures r != "soccer-ball" && r != "y-card" && r != "r-card"
  {
    if name == "soccer-ball" then "goal"
    else if name == "y-card" then "yellow card"
    else if name == "r-card" then "red card"
    else name
  }

  /** Renaming a label twice renames it once. */
  lemma RenameLabelIdempotent(name: string)
    ensures RenameLabel(RenameLabel(name)) == RenameLabel(name)
  {
  }

  /** The stored name of a lineup player: a name with no space (a missing
      first name) gets the `NULL ` prefix. */
  function PlayerName(name: string): (r: string)
    ensures ' ' in r
    ensures ' ' !in name ==> r == "NULL " + name
    ensures ' ' in name ==> r == name
    ensures |name| <= |r| && r[|r| - |name|..] == name
  {
    if ' ' !in name then
      var r := "NULL " + name;
      assert r[4] == ' ';
      r
    else name
  }

  /** The coach step as written: the prefixed name goes to the loop variable
      `name`, left over from the players, while the coach row is stored with
      `coach_name` as it came. Returns the new `name` and the stored name. */
  function CoachStepAsWritten(name: string, coachName: string): (r: (string, string))
    ensures r.1 == coachName
    ensures ' ' !in coachName ==> r.0 == "NULL " + coachName
    ensures ' ' in coachName ==> r.0 == name
  {
    if ' ' !in coachName then ("NULL " + coachName, coachName) else (name, coachName)
  }

  /** The coach step as intended: coaches are stored like players. */
  function CoachName(coachName: string): (r: string)
    ensures ' ' in r
    ensures ' ' !in coachName ==> r == "NULL " + coachName
    ensures ' ' in coachName ==> r == coachName
  {
    PlayerName(coachName)
  }

  /** A coach listed by surname only is stored without a space as written,
      and with the prefix once corrected. */
  lemma CoachPrefixExample()
    ensures ' ' !in CoachStepAsWritten("Petr Cech", "Mourinho").1
    ensures CoachName("Mourinho") == "NULL Mourinho"
  {
  }

  /** The goal counts as written: the first and the last character of the
      score text; indexing an empty score raises. */
  function ScoreGoalsAsWritten(score: string): (r: Result<(string, string), Error>)
    ensures |score| == 0 <==> r == Failure(IndexError)
    ensures r.Success? ==> |r.value.0| == 1 && |r.value.1| == 1
    ensures r.Success? ==> r.value.0 == score[..1] && r.value.1 == score[|score| - 1..]
  {
    if |score| == 0 then Failure(IndexError) else Success(([score[0]], [score[|score| - 1]]))
  }

  /** Unpacking the two sides of a score and converting both. */
  function GoalsOfSides(sides: seq<string>): (r: Result<(int, int), Error>)
    ensures r.Failure? ==> r.error == ValueError
  {
    if |sides| != 2 then Failure(ValueError)
    else
      var home, away := ParseInt(sides[0]), ParseInt(sides[1]);
      if home.None? || away.None? then Failure(ValueError)
      else Success((home.value, away.value))
  }

  /** The goal counts as intended: the two numbers around `" - "`. */
  function ScoreGoals(score: string): (r: Result<(int, int), Error>)
    ensures !Contains(score, " - ") ==> r == Failure(ValueError)
    ensures r.Failure? ==> r.error == ValueError
  {
    GoalsOfSides(Split(score, " - "))
  }

  /** The intended split gives back both goal counts of any score. */
  lemma ScoreGoalsRoundTrip(home: int, away: int)
    ensures ScoreGoals(IntToString(home) + " - " + IntToString(away)) == Success((home, away))
  {
    IntToStringPlain(home);
    IntToStringPlain(away);
    SplitAround(IntToString(home), " - ", IntToString(away));
    ParseIntOfIntToString(home);
    ParseIntOfIntToString(away);
    GoalsOfNumbers(IntToString(home), IntToString(away), home, away);
  }

  lemma GoalsOfNumbers(a: string, b: string, x: int, y: int)
    requires ParseInt(a) == Some(x) && ParseInt(b) == Some(y)
    ensures GoalsOfSides([a, b]) == Success((x, y))
  {
  }

  /** A two-digit score: as written the home side gets "1" of the ten goals. */
  lemma TwoDigitScore()
    ensures ScoreGoalsAsWritten("10 - 0") == Success(("1", "0"))
    ensures ScoreGoals("10 - 0") == Success((10, 0))
  {
    assert IntToString(10) == "10" by {
      assert NatToString(10) == NatToString(1) + [DigitChar(0)];
    }
    assert IntToString(0) == "0";
    assert IntToString(10) + " - " + IntToString(0) == "10 - 0";
    ScoreGoalsRoundTrip(10, 0);
  }

  /** Caption visibility in `process_game_data`: true exactly for `"shown"`. */
  function CaptionVisible(raw: string): (v: bool)
    ensures v <==> raw == "shown"
  {
    raw == "shown"
  }

  /** The Python values the event visibility code compares. */
  datatype PyValue = PyBool(b: bool) | PyStr(s: string)

  /** Python `==` between a boolean and a string, or two of a kind. */
  function PyEq(a: PyValue, b: PyValue): bool {
    match (a, b)
    case (PyBool(x), PyBool(y)) => x == y
    case (PyStr(x), PyStr(y)) => x == y
    case _ => false
  }

  /** Event visibility in `parse_labels_v2` as written: the boolean from the
      first comparison is compared again with the string `"visible"`. */
  function EventVisibleAsWritten(raw: string): (v: bool)
    ensures !v
  {
    var first := PyBool(raw == "visible");
    PyEq(first, PyStr("visible"))
  }

  /** Event visibility as intended: true exactly for `"visible"`. */
  function EventVisible(raw: string): (v: bool)
    ensures v <==> raw == "visible"
  {
    PyEq(PyStr(raw), PyStr("visible"))
  }

  /** A visible annotation is stored as not visible, and correctly once fixed. */
  lemma VisibleAnnotationExample()
    ensures EventVisibleAsWritten("visible") == false
    ensures EventVisible("visible") == true
  {
  }

  /** The team an annotation is filed under in `parse_labels_v2`. */
  function TeamFor(side: string, homeId: int, awayId: int, noTeamId: int): (id: int)
    ensures side == "home" ==> id == homeId
    ensures side == "away" ==> id == awayId
    ensures side != "home" && side != "away" ==> id == noTeamId
  {
    if side == "home" then homeId else if side == "away" then awayId else noTeamId
  }

  /** A row of a table, as its column values by name. */
  type Row<V> = Dict<V>

  /** `filter_by(**kwargs)` keeps a row holding every given column value. */
  predicate Matches<V(==)>(row: Row<V>, kwargs: Dict<V>)
    decreases |kwargs|
  {
    |kwargs| == 0 || (Get(row, kwargs[0].0) == Some(kwargs[0].1) && Matches(row, kwargs[1..]))
  }

  /** A row matches exactly when it holds every keyword argument's value. */
  lemma {:induction false} MatchesEvery<V>(row: Row<V>, kwargs: Dict<V>)
    ensures Matches(row, kwargs) <==> forall i :: 0 <= i < |kwargs| ==> Get(row, kwargs[i].0) == Some(kwargs[i].1)
    decreases |kwargs|
  {
    if |kwargs| > 0 {
      MatchesEvery(row, kwargs[1..]);
      assert forall i :: 1 <= i < |kwargs| ==> kwargs[i] == kwargs[1..][i - 1];
    }
  }

  /** The position of the first matching row at or after `from`. */
  function FirstMatchFrom<V(==)>(table: seq<Row<V>>, kwargs: Dict<V>, from: nat): (i: Option<nat>)
    requires from <= |table|
    ensures i.Some? ==> from <= i.value < |table| && Matches(table[i.value], kwargs)
    ensures i.Some? ==> forall j :: from <= j < i.value ==> !Matches(table[j], kwargs)
    ensures i.None? ==> forall j :: from <= j < |table| ==> !Matches(table[j], kwargs)
    decreases |table| - from
  {
    if from == |table| then None
    else if Matches(table[from], kwargs) then Some(from)
    else
      var rest := FirstMatchFrom(table, kwargs, from + 1);
      rest
  }

  /** The position of the first matching row (`.first()`). */
  function FirstMatch<V(==)>(table: seq<Row<V>>, kwargs: Dict<V>): (i: Option<nat>)
    ensures i.Some? ==> i.value < |table| && Matches(table[i.value], kwargs)
    ensures i.Some? ==> forall j :: 0 <= j < i.value ==> !Matches(table[j], kwargs)
    ensures i.None? ==> forall j :: 0 <= j < |table| ==> !Matches(table[j], kwargs)
  {
    FirstMatchFrom(table, kwargs, 0)
  }

  /** `get_or_create`: the first row matching `kwargs`, or a new row built
      from `kwargs` and added at the end. Returns the table and the row. */
  function GetOrCreate<V(==)>(table: seq<Row<V>>, kwargs: Dict<V>): (r: (seq<Row<V>>, Row<V>))
    ensures FirstMatch(table, kwargs).Some? ==> r.0 == table && r.1 == table[FirstMatch(table, kwargs).value]
    ensures FirstMatch(table, kwargs).None? ==> r.0 == table + [kwargs] && r.1 == kwargs
    ensures |r.0| <= |table| + 1 && r.0[..|table|] == table
  {
    match FirstMatch(table, kwargs)
    case Some(i) => (table, table[i])
    case None => (table + [kwargs], kwargs)
  }

  /** A row built from distinct keyword arguments matches them. */
  lemma SelfMatches<V>(kwargs: Dict<V>)
    requires Distinct(kwargs)
    ensures Matches(kwargs, kwargs)
  {
    forall i | 0 <= i < |kwargs| ensures Get(kwargs, kwargs[i].0) == Some(kwargs[i].1) {
      GetAt(kwargs, i);
    }
    MatchesEvery(kwargs, kwargs);
  }

  /** The row `get_or_create` returns matches the keyword arguments. */
  lemma GetOrCreateMatches<V>(table: seq<Row<V>>, kwargs: Dict<V>)
    requires Distinct(kwargs)
    ensures Matches(GetOrCreate(table, kwargs).1, kwargs)
  {
    SelfMatches(kwargs);
  }

  /** A second call with the same arguments finds the row and adds nothing. */
  lemma GetOrCreateIdempotent<V>(table: seq<Row<V>>, kwargs: Dict<V>)
    requires Distinct(kwargs)
    ensures var (t1, row1) := GetOrCreate(table, kwargs);
            GetOrCreate(t1, kwargs) == (t1, row1)
  {
    var (t1, row1) := GetOrCreate(table, kwargs);
    if FirstMatch(table, kwargs).None? {
      SelfMatches(kwargs);
      assert t1[|table|] == kwargs;
      FirstMatchAppend(table, kwargs);
    } else {
      var i := FirstMatch(table, kwargs).value;
      assert t1 == table;
    }
  }

  /** With no match in `table`, a row appended that matches is the first match. */
  lemma FirstMatchAppend<V>(table: seq<Row<V>>, kwargs: Dict<V>)
    requires FirstMatch(table, kwargs).None? && Matches(kwargs, kwargs)
    ensures FirstMatch(table + [kwargs], kwargs) == Some(|table|)
  {
    FirstMatchFromAppend(table, kwargs, 0);
  }

  lemma {:induction false} FirstMatchFromAppend<V>(table: seq<Row<V>>, kwargs: Dict<V>, from: nat)
    requires from <= |table|
    requires forall j :: from <= j < |table| ==> !Matches(table[j], kwargs)
    requires Matches(kwargs, kwargs)
    ensures FirstMatchFrom(table + [kwargs], kwargs, from) == Some(|table|)
    decreases |table| - from
  {
    var grown := table + [kwargs];
    if from == |table| {
      assert grown[from] == kwargs;
    } else {
      assert grown[from] == table[from];
      FirstMatchFromAppend(table, kwargs, from + 1);
    }
  }
}

=== FILE: known_values.dfy ===
/** The universe of known values of one property (`Retriever.query_as_list`,
    extractor.py:72-80): a full scan of the configured column, with falsy cells
    dropped and, for non-numeric columns, every word-bounded digit run removed
    (`re.sub(r"\b\d+\b", "", s)`) before the ends are trimmed. */
module KnownValues {
  import opened Common
  import opened Text

  /** One cell of the scanned column: SQL NULL or text. */
  datatype Cell = NullCell | TextCell(text: string)

  /** `if el`: NULL and the empty string are dropped. */
  predicate Truthy(c: Cell) {
    c.TextCell? && |c.text| > 0
  }

  /** The end of the digit run that starts at `i`. */
  function RunEnd(s: string, i: nat): (j: nat)
    requires i <= |s|
    ensures i <= j <= |s|
    ensures forall k :: i <= k < j ==> IsDigit(s[k])
    ensures j == |s| || !IsDigit(s[j])
    decreases |s| - i
  {
    if i < |s| && IsDigit(s[i]) then RunEnd(s, i + 1) else i
  }

  /** The start of the digit run that ends just before `i`. */
  function RunStart(s: string, i: nat): (j: nat)
    requires i <= |s|
    ensures j <= i
    ensures forall k :: j <= k < i ==> IsDigit(s[k])
    ensures j == 0 || !IsDigit(s[j - 1])
    decreases i
  {
    if i > 0 && IsDigit(s[i - 1]) then RunStart(s, i - 1) else i
  }

  /** Reference definition: the digit at `k` is removed exactly when its
      maximal digit run is bounded on both sides by a non-word character or
      an end of the string. */
  predicate Removed(s: string, k: nat)
    requires k < |s|
  {
    && IsDigit(s[k])
    && var a, b := RunStart(s, k), RunEnd(s, k);
       (a == 0 || !IsWordChar(s[a - 1])) && (b == |s| || !IsWordChar(s[b]))
  }

  /** The characters from `i` on that the reference definition keeps. */
  function Kept(s: string, i: nat): string
    requires i <= |s|
    decreases |s| - i
  {
    if i == |s| then ""
    else (if Removed(s, i) then "" else [s[i]]) + Kept(s, i + 1)
  }

  /** `\b\d+\b` matches at `i`: a digit run starts after a non-word character
      (or at the start) and ends before one (or at the end). */
  predicate MatchesAt(s: string, i: nat)
    requires i < |s|
  {
    && IsDigit(s[i])
    && (i == 0 || !IsWordChar(s[i - 1]))
    && (RunEnd(s, i) == |s| || !IsWordChar(s[RunEnd(s, i)]))
  }

  /** The left-to-right scan `re.sub` performs from position `i`: a match is
      deleted and the scan resumes after it; any other character is copied. */
  function Scan(s: string, i: nat): string
    requires i <= |s|
    decreases |s| - i
  {
    if i == |s| then ""
    else if MatchesAt(s, i) then Scan(s, RunEnd(s, i))
    else [s[i]] + Scan(s, i + 1)
  }

  /** Inside a run that starts at `i`, every position sees the same run. */
  lemma {:induction false} RunInterior(s: string, i: nat, k: nat)
    requires i <= k < |s|
    requires i == 0 || !IsDigit(s[i - 1])
    requires k < RunEnd(s, i)
    ensures RunStart(s, k) == i && RunEnd(s, k) == RunEnd(s, i)
    decreases k - i
  {
    if k > i {
      RunInterior(s, i, k - 1);
    }
  }

  /** The reference keeps nothing of a run it removes. */
  lemma {:induction false} KeptSkipsRun(s: string, i: nat, j: nat)
    requires i <= j <= |s|
    requires forall k :: i <= k < j ==> Removed(s, k)
    ensures Kept(s, i) == Kept(s, j)
    decreases j - i
  {
    if i < j {
      assert Removed(s, i);
      assert Kept(s, i) == "" + Kept(s, i + 1) == Kept(s, i + 1);
      KeptSkipsRun(s, i + 1, j);
    }
  }

  /** A position the scan can reach: not in the middle of a removed run. */
  predicate Reachable(s: string, i: nat)
    requires i <= |s|
  {
    i == 0 || i == |s| || !IsDigit(s[i]) || !IsDigit(s[i - 1]) || !Removed(s, i - 1)
  }

  /** The regular-expression scan agrees with the reference definition. */
  lemma {:induction false} ScanIsKept(s: string, i: nat)
    requires i <= |s| && Reachable(s, i)
    ensures Scan(s, i) == Kept(s, i)
    decreases |s| - i
  {
    if i < |s| {
      if MatchesAt(s, i) {
        MatchRemovesRun(s, i);
        ScanIsKept(s, RunEnd(s, i));
      } else {
        UnmatchedIsKept(s, i);
        ScanIsKept(s, i + 1);
      }
    }
  }

  /** A match removes its whole run, and the scan resumes at a reachable position. */
  lemma MatchRemovesRun(s: string, i: nat)
    requires i < |s| && MatchesAt(s, i)
    ensures Kept(s, i) == Kept(s, RunEnd(s, i))
    ensures Reachable(s, RunEnd(s, i))
  {
    var j := RunEnd(s, i);
    forall k | i <= k < j ensures Removed(s, k) {
      RunInterior(s, i, k);
    }
    KeptSkipsRun(s, i, j);
  }

  /** At a reachable position where no match starts, the reference keeps the
      character. */
  lemma UnmatchedIsKept(s: string, i: nat)
    requires i < |s| && Reachable(s, i) && !MatchesAt(s, i)
    ensures !Removed(s, i)
  {
    if IsDigit(s[i]) {
      if i > 0 && IsDigit(s[i - 1]) {
        assert RunStart(s, i) == RunStart(s, i - 1);
        assert RunEnd(s, i - 1) == RunEnd(s, i);
      } else {
        assert RunStart(s, i) == i;
      }
    }
  }

  /** `re.sub(r"\b\d+\b", "", s)`. */
  function RemoveStandaloneDigits(s: string): (r: string)
    ensures r == Kept(s, 0)
  {
    ScanIsKept(s, 0);
    Scan(s, 0)
  }

  /** The normalised form of one column value. */
  function Normalize(text: string, numeric: bool): (r: string)
    ensures numeric ==> r == text
    ensures !numeric ==> r == [] || (!IsSpace(r[0]) && !IsSpace(r[|r| - 1]))
  {
    if numeric then text else Strip(RemoveStandaloneDigits(text), IsSpace)
  }

  /** The set of values the column yields once normalised. */
  ghost function Expected(rows: seq<Cell>, numeric: bool): set<string> {
    set c | c in rows && Truthy(c) :: Normalize(c.text, numeric)
  }

  ghost predicate NoDuplicates(xs: seq<string>) {
    forall i, j :: 0 <= i < j < |xs| ==> xs[i] != xs[j]
  }

  /** `query_as_list`: `list(set(...))` over the normalised truthy cells.
      `db.run` answers "" for a table with no row, and `ast.literal_eval("")`
      raises. */
  method QueryAsList(rows: seq<Cell>, numeric: bool) returns (res: Result<seq<string>, Error>)
    ensures res.Failure? <==> |rows| == 0
    ensures res.Failure? ==> res.error == DataAccess
    ensures res.Success? ==> NoDuplicates(res.value)
    ensures res.Success? ==> forall x :: x in res.value <==> x in Expected(rows, numeric)
  {
    if |rows| == 0 {
      return Failure(DataAccess);
    }
    var known := DistinctValues(rows, numeric);
    return Success(known);
  }

  /** The normalised truthy cells without repetition. Python leaves the order
      to the hash set; any duplicate-free order is admissible and this one
      keeps first occurrences. */
  method DistinctValues(rows: seq<Cell>, numeric: bool) returns (known: seq<string>)
    ensures NoDuplicates(known)
    ensures forall x :: x in known <==> x in Expected(rows, numeric)
  {
    known := [];
    var i := 0;
    while i < |rows|
      invariant 0 <= i <= |rows|
      invariant NoDuplicates(known)
      invariant forall x :: x in known <==> x in Expected(rows[..i], numeric)
    {
      assert rows[..i + 1] == rows[..i] + [rows[i]];
      if Truthy(rows[i]) {
        var v := Normalize(rows[i].text, numeric);
        if v !in known {
          known := known + [v];
        }
      }
      i := i + 1;
    }
    assert rows[..i] == rows;
  }

  /** A digit glued to letters survives normalisation. */
  lemma NormalizeKeepsGluedDigit()
    ensures Normalize("Team2", false) == "Team2"
  {
    var kept := RemoveStandaloneDigits("Team2");
    assert kept == "Team2" by {
      ScanGluedDigit();
    }
    assert Strip(kept, IsSpace) == kept by {
      StripUnspaced(kept);
    }
  }

  lemma ScanGluedDigit()
    ensures RemoveStandaloneDigits("Team2") == "Team2"
  {
    var s := "Team2";
    assert !MatchesAt(s, 4);
    assert Scan(s, 4) == "2";
    assert Scan(s, 3) == "m2";
    assert Scan(s, 2) == "am2";
    assert Scan(s, 1) == "eam2";
    assert Scan(s, 0) == "Team2";
  }

  /** A digit standing alone as a word is removed, and so is the space left behind. */
  lemma NormalizeDropsStandaloneDigit()
    ensures Normalize("Team 2", false) == "Team"
  {
    var s := "Team 2";
    assert RunEnd(s, 6) == 6;
    assert RunEnd(s, 5) == 6;
    assert MatchesAt(s, 5);
    assert Scan(s, 5) == "";
    assert Scan(s, 4) == " ";
    assert Scan(s, 3) == "m ";
    assert Scan(s, 2) == "am ";
    assert Scan(s, 1) == "eam ";
    assert Scan(s, 0) == "Team ";
    assert RemoveStandaloneDigits(s) == "Team ";
    StripTrailingSpace();
  }

  lemma StripTrailingSpace()
    ensures Strip("Team ", IsSpace) == "Team"
  {
    assert "Team" + " " == "Team ";
    StripTrailing("Team", " ", IsSpace);
  }

  /** A purely numeric value of a text column normalises to the empty string;
      a numeric column keeps it. */
  lemma NormalizeNumberOnly()
    ensures Normalize("2015", false) == ""
    ensures Normalize("2015", true) == "2015"
  {
    var s := "2015";
    assert RunEnd(s, 4) == 4;
    assert RunEnd(s, 3) == 4;
    assert RunEnd(s, 2) == 4;
    assert RunEnd(s, 1) == 4;
    assert RunEnd(s, 0) == 4;
    assert MatchesAt(s, 0);
    assert Scan(s, 0) == "";
  }
}

=== FILE: matching.dfy ===
/** The three-tier fuzzy match policy (`Retriever.fuzzy_string`,
    extractor.py:133-160). The scorer itself (thefuzz `process.extract`) is not
    modelled: its answer, a list of `(candidate, score)` pairs, is the input. */
module Matching {
  import opened Common

  datatype Scored = Scored(choice: string, score: int)

  /** What a match returns: a bare string (auto-accepted) or a list of strings. */
  datatype MatchResult = Single(value: string) | Candidates(items: seq<string>)

  /** The strings a result offers. */
  function Offered(r: MatchResult): seq<string> {
    match r
    case Single(v) => [v]
    case Candidates(items) => items
  }

  /** `[m[0] for m in ms]`. */
  function Choices(ms: seq<Scored>): (r: seq<string>)
    ensures |r| == |ms|
    ensures forall i :: 0 <= i < |ms| ==> r[i] == ms[i].choice
  {
    seq(|ms|, i requires 0 <= i < |ms| => ms[i].choice)
  }

  /** `[m for m in ms if m[1] >= t]`. */
  function AtLeast(ms: seq<Scored>, t: int): (r: seq<Scored>)
    ensures |r| <= |ms|
    ensures forall m :: m in r <==> m in ms && m.score >= t
    decreases |ms|
  {
    if |ms| == 0 then []
    else (if ms[0].score >= t then [ms[0]] else []) + AtLeast(ms[1..], t)
  }

  /** `[m for m in ms if m[1] == t]`. */
  function WithScore(ms: seq<Scored>, t: int): (r: seq<Scored>)
    ensures |r| <= |ms|
    ensures forall m :: m in r <==> m in ms && m.score == t
    decreases |ms|
  {
    if |ms| == 0 then []
    else (if ms[0].score == t then [ms[0]] else []) + WithScore(ms[1..], t)
  }

  /** Keeping the ties at a score that already clears the threshold does not
      depend on whether the threshold filter ran first. */
  lemma {:induction false} TiesIgnoreThreshold(ms: seq<Scored>, t: int, top: int)
    requires top >= t
    ensures WithScore(AtLeast(ms, t), top) == WithScore(ms, top)
    decreases |ms|
  {
    if |ms| > 0 {
      TiesIgnoreThreshold(ms[1..], t, top);
      var head := if ms[0].score >= t then [ms[0]] else [];
      assert AtLeast(ms, t) == head + AtLeast(ms[1..], t);
      WithScoreAppend(head, AtLeast(ms[1..], t), top);
    }
  }

  /** The filter distributes over concatenation, so it keeps the input order
      and every qualifying occurrence. */
  lemma {:induction false} AtLeastAppend(a: seq<Scored>, b: seq<Scored>, t: int)
    ensures AtLeast(a + b, t) == AtLeast(a, t) + AtLeast(b, t)
    decreases |a|
  {
    if |a| > 0 {
      assert (a + b)[1..] == a[1..] + b;
      AtLeastAppend(a[1..], b, t);
    } else {
      assert a + b == b;
    }
  }

  lemma {:induction false} WithScoreAppend(a: seq<Scored>, b: seq<Scored>, t: int)
    ensures WithScore(a + b, t) == WithScore(a, t) + WithScore(b, t)
    decreases |a|
  {
    if |a| > 0 {
      assert (a + b)[1..] == a[1..] + b;
      WithScoreAppend(a[1..], b, t);
    } else {
      assert a + b == b;
    }
  }

  /** `fuzzy_string` given the scorer's answer `matches`:
      nothing clears `threshold` gives the list of candidates clearing `low`;
      otherwise the candidates sharing the first qualifying score are kept,
      collapsed to a bare string when only one of them remains. */
  function FuzzyString(matches: seq<Scored>, threshold: int, low: int): (r: MatchResult)
    ensures forall x :: x in Offered(r) ==> exists m :: m in matches && m.choice == x
    ensures |AtLeast(matches, threshold)| == 0 ==>
              r.Candidates? && r.items == Choices(AtLeast(matches, low))
    ensures |AtLeast(matches, threshold)| > 0 ==>
              var top := AtLeast(matches, threshold)[0].score;
              && top >= threshold
              && (r.Single? <==> |WithScore(matches, top)| == 1)
              && (r.Single? ==> r.value == WithScore(matches, top)[0].choice)
              && (r.Candidates? ==> |r.items| >= 2 && r.items == Choices(WithScore(matches, top)))
  {
    var filtered := AtLeast(matches, threshold);
    if |filtered| == 0 then
      var r := Candidates(Choices(AtLeast(matches, low)));
      assert forall i :: 0 <= i < |r.items| ==> AtLeast(matches, low)[i] in matches;
      r
    else
      var top := filtered[0].score;
      TopTies(matches, threshold);
      var ties := WithScore(filtered, top);
      if |filtered| == 1 then Single(filtered[0].choice)
      else if |ties| == 1 then Single(ties[0].choice)
      else Candidates(Choices(ties))
  }

  /** The candidates sharing the first qualifying score: the first of them is
      that candidate, and a lone qualifying candidate has no tie. */
  lemma TopTies(matches: seq<Scored>, threshold: int)
    requires |AtLeast(matches, threshold)| > 0
    ensures var filtered := AtLeast(matches, threshold);
            var ties := WithScore(matches, filtered[0].score);
            && filtered[0].score >= threshold
            && |ties| > 0 && ties[0] == filtered[0]
            && (|filtered| == 1 ==> |ties| == 1)
            && WithScore(filtered, filtered[0].score) == ties
            && forall i :: 0 <= i < |ties| ==> ties[i] in matches
  {
    var filtered := AtLeast(matches, threshold);
    var top := filtered[0].score;
    assert top >= threshold && filtered[0] in matches by {
      assert filtered[0] in filtered;
    }
    TiesIgnoreThreshold(matches, threshold, top);
    TiesStartAtHead(filtered);
    var ties := WithScore(matches, top);
    assert forall i :: 0 <= i < |ties| ==> ties[i] in matches by {
      assert forall i :: 0 <= i < |ties| ==> ties[i] in ties;
    }
  }

  /** The ties at the head's score begin with the head, and a one-element
      list ties only with itself. */
  lemma TiesStartAtHead(ms: seq<Scored>)
    requires |ms| > 0
    ensures var ties := WithScore(ms, ms[0].score);
            && |ties| > 0 && ties[0] == ms[0]
            && (|ms| == 1 ==> |ties| == 1)
  {
    var top := ms[0].score;
    assert ms == [ms[0]] + ms[1..];
    WithScoreAppend([ms[0]], ms[1..], top);
    if |ms| == 1 {
      assert ms[1..] == [];
    }
  }

  /** The scorer lists its candidates best first. */
  ghost predicate Descending(ms: seq<Scored>) {
    forall i, j :: 0 <= i < j < |ms| ==> ms[i].score >= ms[j].score
  }

  /** The best score in a non-empty list. */
  function MaxScore(ms: seq<Scored>): (best: int)
    requires |ms| > 0
    ensures forall m :: m in ms ==> m.score <= best
    ensures exists m :: m in ms && m.score == best
    decreases |ms|
  {
    if |ms| == 1 then ms[0].score
    else
      var rest := MaxScore(ms[1..]);
      assert forall m :: m in ms ==> m == ms[0] || m in ms[1..];
      if ms[0].score >= rest then ms[0].score else rest
  }

  /** Reference policy, stated on the best score rather than on list positions:
      give up to the low floor when the best score misses the threshold; else
      auto-accept when a single candidate holds the best score, and offer all
      holders of the best score otherwise. */
  function Policy(ms: seq<Scored>, threshold: int, low: int): MatchResult {
    if |ms| == 0 || MaxScore(ms) < threshold then Candidates(Choices(AtLeast(ms, low)))
    else
      var best := WithScore(ms, MaxScore(ms));
      if |best| == 1 then Single(best[0].choice) else Candidates(Choices(best))
  }

  /** For a scorer that ranks best first, `fuzzy_string` follows the reference policy. */
  lemma FuzzyStringFollowsPolicy(ms: seq<Scored>, threshold: int, low: int)
    requires Descending(ms)
    ensures FuzzyString(ms, threshold, low) == Policy(ms, threshold, low)
  {
    var filtered := AtLeast(ms, threshold);
    if |ms| > 0 && MaxScore(ms) >= threshold {
      var top := MaxScore(ms);
      assert ms[0].score == top by {
        var m :| m in ms && m.score == top;
        assert forall i :: 0 <= i < |ms| ==> ms[0].score >= ms[i].score;
      }
      assert ms[0] in filtered;
      assert filtered[0] == ms[0] by {
        assert ms == [ms[0]] + ms[1..];
        assert AtLeast(ms, threshold) == [ms[0]] + AtLeast(ms[1..], threshold);
      }
    } else {
      assert forall m :: m in ms ==> m.score < threshold;
    }
  }

  /** A single candidate clearing the threshold is accepted without asking. */
  lemma AutoAcceptExample()
    ensures FuzzyString([Scored("Arsenal", 91), Scored("Chelsea", 36)], 80, 30) == Single("Arsenal")
  {
    var ms := [Scored("Arsenal", 91), Scored("Chelsea", 36)];
    assert AtLeast(ms[1..], 80) == [];
    assert AtLeast(ms, 80) == [ms[0]];
  }

  /** An exact tie at the top is offered as both candidates, in input order. */
  lemma TieExample()
    ensures FuzzyString([Scored("Man United", 86), Scored("Man City", 86)], 80, 30)
            == Candidates(["Man United", "Man City"])
  {
    var ms := [Scored("Man United", 86), Scored("Man City", 86)];
    assert AtLeast(ms[1..], 80) == [ms[1]];
    assert AtLeast(ms, 80) == ms;
    assert WithScore(ms[1..], 86) == [ms[1]];
    assert WithScore(ms, 86) == ms;
  }
}

=== FILE: property_lists.dfy ===
/** Whole-list passes over the extracted property dictionaries:
    `remove_duplicates` (extractor.py:327-336) and `fetch_pks`
    (extractor.py:339-356). */
module PropertyLists {
  import opened Common
  import opened Dicts
  import opened Retrieval

  /** Reference definition: the value key `k` had in the last of `ds` that holds it. */
  function LastSeen(ds: seq<Dict<Value>>, k: string): (r: Option<Value>)
    ensures r.Some? ==> exists i :: 0 <= i < |ds| && Get(ds[i], k) == r
    ensures r.None? ==> forall i :: 0 <= i < |ds| ==> Get(ds[i], k).None?
    decreases |ds|
  {
    if |ds| == 0 then None
    else if Get(ds[|ds| - 1], k).Some? then Get(ds[|ds| - 1], k)
    else
      var r := LastSeen(ds[..|ds| - 1], k);
      assert forall i :: 0 <= i < |ds| - 1 ==> ds[..|ds| - 1][i] == ds[i];
      r
  }

  /** The inner loop of `remove_duplicates` over one dictionary: an entry
      whose value equals the one `seen` holds for its key is deleted; any
      other entry stays and becomes what `seen` holds for its key. Returns
      the kept entries and the updated `seen`. */
  function DedupDict(d: Dict<Value>, seen: Dict<Value>): (res: (Dict<Value>, Dict<Value>))
    ensures |res.0| <= |d|
    decreases |d|
  {
    if |d| == 0 then ([], seen)
    else if Get(seen, d[0].0) == Some(d[0].1) then DedupDict(d[1..], seen)
    else
      var rest := DedupDict(d[1..], Put(seen, d[0].0, d[0].1));
      ([d[0]] + rest.0, rest.1)
  }

  /** After a dictionary, `seen` holds its value for every key it has. */
  lemma {:induction false} DedupDictSeen(d: Dict<Value>, seen: Dict<Value>, k: string)
    requires Distinct(d)
    ensures Get(DedupDict(d, seen).1, k) == (if Get(d, k).Some? then Get(d, k) else Get(seen, k))
    decreases |d|
  {
    if |d| > 0 {
      DistinctTail(d);
      var next := if Get(seen, d[0].0) == Some(d[0].1) then seen else Put(seen, d[0].0, d[0].1);
      DedupDictSeen(d[1..], next, k);
    }
  }

  /** An entry is deleted exactly when `seen` already holds its value. */
  lemma {:induction false} DedupDictKept(d: Dict<Value>, seen: Dict<Value>, k: string)
    requires Distinct(d)
    ensures Get(DedupDict(d, seen).0, k)
            == (if Get(d, k).Some? && Get(seen, k) == Get(d, k) then None else Get(d, k))
    decreases |d|
  {
    if |d| > 0 {
      DistinctTail(d);
      var next := if Get(seen, d[0].0) == Some(d[0].1) then seen else Put(seen, d[0].0, d[0].1);
      DedupDictKept(d[1..], next, k);
    }
  }

  /** The kept entries are entries of the dictionary. */
  lemma {:induction false} DedupDictEntries(d: Dict<Value>, seen: Dict<Value>)
    ensures forall e :: e in DedupDict(d, seen).0 ==> e in d
    decreases |d|
  {
    if |d| > 0 {
      var next := if Get(seen, d[0].0) == Some(d[0].1) then seen else Put(seen, d[0].0, d[0].1);
      DedupDictEntries(d[1..], next);
      assert forall e :: e in d[1..] ==> e in d;
    }
  }

  /** A dictionary none of whose entries `seen` holds is kept whole. */
  lemma {:induction false} DedupDictFresh(d: Dict<Value>, seen: Dict<Value>)
    requires Distinct(d)
    requires forall i :: 0 <= i < |d| ==> Get(seen, d[i].0) != Some(d[i].1)
    ensures DedupDict(d, seen).0 == d
    decreases |d|
  {
    if |d| > 0 {
      DistinctTail(d);
      var next := Put(seen, d[0].0, d[0].1);
      forall i | 0 <= i < |d[1..]| ensures Get(next, d[1..][i].0) != Some(d[1..][i].1) {
        assert d[1..][i] == d[i + 1];
      }
      DedupDictFresh(d[1..], next);
    }
  }

  /** The outer loop, from the `seen` map left by the dictionaries before. */
  function DedupFrom(ds: seq<Dict<Value>>, seen: Dict<Value>): (r: seq<Dict<Value>>)
    ensures |r| == |ds|
    decreases |ds|
  {
    if |ds| == 0 then []
    else
      var step := DedupDict(ds[0], seen);
      [step.0] + DedupFrom(ds[1..], step.1)
  }

  /** `remove_duplicates`: `seen` starts empty. */
  function RemoveDuplicates(ds: seq<Dict<Value>>): (r: seq<Dict<Value>>)
    ensures |r| == |ds|
  {
    DedupFrom(ds, [])
  }

  /** What `seen` holds for `k` after `prefix`, starting from `seen`. */
  function SeenAfter(prefix: seq<Dict<Value>>, seen: Dict<Value>, k: string): Option<Value> {
    if LastSeen(prefix, k).Some? then LastSeen(prefix, k) else Get(seen, k)
  }

  /** Key `k` is deleted from the `i`-th dictionary exactly when the last
      earlier dictionary holding `k` held the same value; nothing else changes. */
  lemma {:induction false} DedupFromSpec(ds: seq<Dict<Value>>, seen: Dict<Value>, i: nat, k: string)
    requires forall j :: 0 <= j < |ds| ==> Distinct(ds[j])
    requires i < |ds|
    ensures Get(DedupFrom(ds, seen)[i], k)
            == (if Get(ds[i], k).Some? && SeenAfter(ds[..i], seen, k) == Get(ds[i], k) then None else Get(ds[i], k))
    decreases i
  {
    var next := DedupDict(ds[0], seen).1;
    if i > 0 {
      DedupFromSpec(ds[1..], next, i - 1, k);
      assert DedupFrom(ds, seen)[i] == DedupFrom(ds[1..], next)[i - 1];
      assert ds[1..][i - 1] == ds[i];
      assert SeenAfter(ds[1..][..i - 1], next, k) == SeenAfter(ds[..i], seen, k) by {
        SeenAfterShift(ds[..i], seen, k);
        assert ds[..i][1..] == ds[1..][..i - 1];
      }
    } else {
      assert ds[..0] == [];
      DedupDictKept(ds[0], seen, k);
    }
  }

  /** Consuming the first dictionary of a prefix moves it into `seen`. */
  lemma {:induction false} SeenAfterShift(prefix: seq<Dict<Value>>, seen: Dict<Value>, k: string)
    requires |prefix| > 0 && Distinct(prefix[0])
    ensures SeenAfter(prefix[1..], DedupDict(prefix[0], seen).1, k) == SeenAfter(prefix, seen, k)
    decreases |prefix|
  {
    var tail := prefix[1..];
    if |prefix| == 1 {
      assert tail == [] && prefix[..0] == [];
      DedupDictSeen(prefix[0], seen, k);
    } else {
      var init := prefix[..|prefix| - 1];
      assert tail[..|tail| - 1] == init[1..];
      LastSeenStep(tail, init[1..], prefix[|prefix| - 1], k);
      LastSeenStep(prefix, init, prefix[|prefix| - 1], k);
      if Get(prefix[|prefix| - 1], k).None? {
        SeenAfterShift(init, seen, k);
      }
    }
  }

  /** Unfolds `LastSeen` once, naming the pieces. */
  lemma LastSeenStep(ds: seq<Dict<Value>>, init: seq<Dict<Value>>, last: Dict<Value>, k: string)
    requires |ds| > 0 && init == ds[..|ds| - 1] && last == ds[|ds| - 1]
    ensures LastSeen(ds, k) == if Get(last, k).Some? then Get(last, k) else LastSeen(init, k)
  {
  }

  /** `remove_duplicates` against the reference definition. */
  lemma RemoveDuplicatesSpec(ds: seq<Dict<Value>>, i: nat, k: string)
    requires forall j :: 0 <= j < |ds| ==> Distinct(ds[j])
    requires i < |ds|
    ensures Get(RemoveDuplicates(ds)[i], k)
            == (if Get(ds[i], k).Some? && LastSeen(ds[..i], k) == Get(ds[i], k) then None else Get(ds[i], k))
  {
    DedupFromSpec(ds, [], i, k);
  }

  /** The first dictionary is never touched, and no entry is ever added. */
  lemma RemoveDuplicatesKeepsFirst(ds: seq<Dict<Value>>)
    requires forall j :: 0 <= j < |ds| ==> Distinct(ds[j])
    ensures |ds| > 0 ==> RemoveDuplicates(ds)[0] == ds[0]
    ensures forall i, e :: 0 <= i < |ds| && e in RemoveDuplicates(ds)[i] ==> e in ds[i]
  {
    if |ds| > 0 {
      DedupDictFresh(ds[0], []);
    }
    forall i, e | 0 <= i < |ds| && e in RemoveDuplicates(ds)[i] ensures e in ds[i] {
      DedupFromEntries(ds, [], i);
    }
  }

  lemma {:induction false} DedupFromEntries(ds: seq<Dict<Value>>, seen: Dict<Value>, i: nat)
    requires forall j :: 0 <= j < |ds| ==> Distinct(ds[j])
    requires i < |ds|
    ensures forall e :: e in DedupFrom(ds, seen)[i] ==> e in ds[i]
    decreases i
  {
    if i > 0 {
      DedupFromEntries(ds[1..], DedupDict(ds[0], seen).1, i - 1);
    } else {
      DedupDictEntries(ds[0], seen);
    }
  }

  /** `k + "_pk"` names one property only. */
  lemma PkKeyInjective(a: string, b: string)
    requires a + "_pk" == b + "_pk"
    ensures a == b
  {
    assert a == (a + "_pk")[..|a|];
    assert b == (b + "_pk")[..|b|];
  }

  /** The inner loop of `fetch_pks`: for each property that has a retriever,
      in the dictionary's order, `<name>_pk` maps to that retriever's key lookup. */
  function PkAttributes(d: Dict<Value>, retrievers: Dict<Retriever>): (r: Dict<seq<Option<string>>>)
    ensures forall name :: Get(r, name + "_pk") ==
              (if Get(d, name).Some? && Get(retrievers, name).Some?
               then Some(FetchPk(Get(retrievers, name).value, Get(d, name).value)) else None)
    ensures |r| <= |d|
    decreases |d|
  {
    if |d| == 0 then []
    else
      var (name, v) := d[0];
      var rest := PkAttributes(d[1..], retrievers);
      match Get(retrievers, name)
      case None => rest
      case Some(rt) =>
        var r := [(name + "_pk", FetchPk(rt, v))] + rest;
        assert r[1..] == rest;
        forall other ensures Get(r, other + "_pk") ==
                  (if Get(d, other).Some? && Get(retrievers, other).Some?
                   then Some(FetchPk(Get(retrievers, other).value, Get(d, other).value)) else None) {
          if other + "_pk" == name + "_pk" {
            PkKeyInjective(other, name);
          }
        }
        r
  }

  /** `fetch_pks`: one dictionary of key lookups per property dictionary. */
  function FetchPks(ds: seq<Dict<Value>>, retrievers: Dict<Retriever>): (r: seq<Dict<seq<Option<string>>>>)
    ensures |r| == |ds|
    ensures forall i :: 0 <= i < |ds| ==> r[i] == PkAttributes(ds[i], retrievers)
  {
    seq(|ds|, i requires 0 <= i < |ds| => PkAttributes(ds[i], retrievers))
  }

  /** Every property with a retriever gets one key slot per value. */
  lemma FetchPksAligned(ds: seq<Dict<Value>>, retrievers: Dict<Retriever>, i: nat, name: string)
    requires i < |ds| && Get(ds[i], name).Some? && Get(retrievers, name).Some?
    ensures var pks := Get(FetchPks(ds, retrievers)[i], name + "_pk");
            pks.Some? && |pks.value| == |AsList(Get(ds[i], name).value)|
  {
  }
}

=== FILE: reconcile.dfy ===
/** The interactive reconciliation pass (`check_and_update_properties` and
    `recheck_property_value`, extractor.py:224-323). The user's answers to
    `input_func` are a list consumed front to back; running out of answers is
    `EndOfInput`. Screen output is not modelled. */
module Reconcile {
  import opened Common
  import opened Text
  import opened Dicts
  import opened Matching
  import opened Retrieval
  import KnownValues

  /** `AsWritten` follows the code; `Corrected` fixes the two defects listed
      under Findings (the first-character comparison and the re-entry call). */
  datatype Variant = AsWritten | Corrected

  /** How one value without an augmentation hit is settled before any question is asked. */
  datatype Decision =
    | Keep                           // already the top match, or no match at all
    | Accept(value: string)          // a single fuzzy match clears the threshold
    | Ask(candidates: seq<string>)   // the user picks from the candidates

  /** `top_matches` as Python indexes and tests it: the items of a list, or
      the one-character strings of a bare string. */
  function Indexed(r: MatchResult): (xs: seq<string>)
    ensures r.Candidates? ==> xs == r.items
    ensures r.Single? ==> |xs| == |r.value| && forall i :: 0 <= i < |xs| ==> xs[i] == [r.value[i]]
  {
    match r
    case Single(s) => Iterated(Str(s))
    case Candidates(items) => items
  }

  /** The test of extractor.py:287 on a non-empty result: `top_matches[0] == value`.
      On a bare string that is its first character; the corrected test
      compares the whole match, as the comment there says. */
  function SameAsTop(r: MatchResult, value: string, variant: Variant): bool
    requires |Indexed(r)| > 0
  {
    match variant
    case AsWritten => Indexed(r)[0] == value
    case Corrected => Offered(r)[0] == value
  }

  /** The order of the tests in the loop body once no augmentation alias
      applied: the top-match test, then no match, then a fuzzy auto-accept,
      else ask. */
  function Triage(r: MatchResult, strategy: Method, value: string, variant: Variant): (d: Decision)
    ensures |Indexed(r)| == 0 ==> d == Keep
    ensures |Indexed(r)| > 0 && SameAsTop(r, value, variant) ==> d == Keep
    ensures |Indexed(r)| > 0 && !SameAsTop(r, value, variant) && r.Single? && strategy == Fuzzy ==> d == Accept(r.value)
    ensures |Indexed(r)| > 0 && !SameAsTop(r, value, variant) && !(r.Single? && strategy == Fuzzy) ==> d == Ask(Indexed(r))
    ensures d.Accept? ==> r == Single(d.value) && strategy == Fuzzy
    ensures d.Ask? ==> |d.candidates| > 0 && !SameAsTop(r, value, variant)
  {
    if |Indexed(r)| > 0 && SameAsTop(r, value, variant) then Keep
    else if |Indexed(r)| == 0 then Keep
    else if r.Single? && strategy == Fuzzy then Accept(r.value)
    else Ask(Indexed(r))
  }

  /** `rest` is what remains of `answers` once some leading answers were consumed. */
  predicate Suffix(rest: seq<string>, answers: seq<string>) {
    |rest| <= |answers| && rest == answers[|answers| - |rest|..]
  }

  lemma SuffixTrans(a: seq<string>, b: seq<string>, c: seq<string>)
    requires Suffix(a, b) && Suffix(b, c)
    ensures Suffix(a, c)
  {
    assert c[|c| - |b|..][|b| - |a|..] == c[|c| - |a|..];
  }

  lemma SuffixTail(answers: seq<string>)
    requires |answers| > 0
    ensures Suffix(answers[1..], answers)
  {
  }

  /** A menu answer `"1"`, `"2"` or `"3"` as the position it selects. */
  function MenuIndex(c: string): (k: Option<nat>)
    ensures k.Some? ==> 1 <= k.value <= 3 && c == IntToString(k.value)
    ensures k.None? ==> c != "1" && c != "2" && c != "3"
  {
    if c == "1" then Some(1) else if c == "2" then Some(2) else if c == "3" then Some(3) else None
  }

  /** `matches[k - 1]`, which raises when the menu offered fewer than `k` entries. */
  function Pick(matches: seq<string>, k: nat): (res: Result<string, Error>)
    requires k >= 1
    ensures res.Success? <==> k <= |matches|
    ensures res.Success? ==> res.value == matches[k - 1]
  {
    if k <= |matches| then Success(matches[k - 1]) else Failure(IndexError)
  }

  /** `recheck_property_value`: read a replacement, `quit` (in any case) gives
      up; a replacement with no difflib match is asked for again; otherwise a
      menu answer picks a match, `5` gives up, and anything else starts over.
      Every round consumes an answer, so the loop ends. */
  function Recheck(rt: Retriever, answers: seq<string>): (res: Result<(Option<string>, seq<string>), Error>)
    ensures res.Success? ==> Suffix(res.value.1, answers) && |res.value.1| < |answers|
    ensures res.Success? && res.value.0.Some? ==> exists t :: res.value.0.value in rt.backend.closeMatches(t)
    ensures |answers| == 0 ==> res == Failure(EndOfInput)
    ensures |answers| > 0 && LowerAscii(answers[0]) == "quit" ==> res == Success((None, answers[1..]))
    ensures |answers| > 0 && LowerAscii(answers[0]) != "quit" && |rt.backend.rows| == 0 ==> res == Failure(DataAccess)
    ensures |answers| > 0 && LowerAscii(answers[0]) != "quit" && |rt.backend.rows| > 0 ==>
              var matches := rt.backend.closeMatches(answers[0]);
              && (|matches| == 0 ==> res == Recheck(rt, answers[1..]))
              && (|matches| > 0 && |answers| == 1 ==> res == Failure(EndOfInput))
              && (|matches| > 0 && |answers| > 1 ==> res == Round(rt, matches, answers[1], answers[2..]))
    ensures res.Failure? ==> res.error == IndexError || res.error == EndOfInput || res.error == DataAccess
    decreases |answers|
  {
    if |answers| == 0 then Failure(EndOfInput)
    else
      var typed := answers[0];
      var rest := answers[1..];
      if LowerAscii(typed) == "quit" then Success((None, rest))
      else
        match FindCloseMatches(rt, typed, Difflib)
        case Failure(e) => Failure(e)
        case Success(top) =>
          var matches := Offered(top);
          if |matches| == 0 then
            var res := Recheck(rt, rest);
            if res.Success? then SuffixTrans(res.value.1, rest, answers); res else res
          else if |rest| == 0 then Failure(EndOfInput)
          else
            var res := Round(rt, matches, rest[0], rest[1..]);
            if res.Success? then SuffixTrans(res.value.1, rest[1..], answers); res else res
  }

  /** The answer to the menu of a recheck round over `matches`: `1`-`3` pick the
      match at that position, `5` gives up, and anything else starts over on
      the answers that follow. */
  function Round(rt: Retriever, matches: seq<string>, selection: string, rest: seq<string>)
    : (res: Result<(Option<string>, seq<string>), Error>)
    ensures MenuIndex(selection).Some? ==>
              var k := MenuIndex(selection).value;
              res == (if k <= |matches| then Success((Some(matches[k - 1]), rest)) else Failure(IndexError))
    ensures selection == "5" ==> res == Success((None, rest))
    ensures MenuIndex(selection).None? && selection != "5" ==> res == Recheck(rt, rest)
    ensures res.Success? ==> Suffix(res.value.1, rest)
    decreases |rest| + 1
  {
    match MenuIndex(selection)
    case Some(k) =>
      (match Pick(matches, k)
       case Success(m) => Success((Some(m), rest))
       case Failure(e) => Failure(e))
    case None =>
      if selection == "5" then Success((None, rest))
      else Recheck(rt, rest)
  }

  /** A retyped value is a retry when it is not `quit` and difflib finds no match for it. */
  ghost predicate Retry(rt: Retriever, typed: string) {
    LowerAscii(typed) != "quit" && |rt.backend.closeMatches(typed)| == 0
  }

  /** Retries leave no trace: the recheck loop behaves as if the user had
      started with the answers that follow them. */
  lemma {:induction false} RecheckSkipsRetries(rt: Retriever, retries: seq<string>, answers: seq<string>)
    requires |rt.backend.rows| > 0
    requires forall i :: 0 <= i < |retries| ==> Retry(rt, retries[i])
    ensures Recheck(rt, retries + answers) == Recheck(rt, answers)
    decreases |retries|
  {
    if |retries| > 0 {
      var all := retries + answers;
      assert all[0] == retries[0] && all[1..] == retries[1..] + answers;
      assert Retry(rt, retries[0]);
      RecheckSkipsRetries(rt, retries[1..], answers);
    } else {
      assert retries + answers == answers;
    }
  }

  /** A recheck round that picks: the `k`-th difflib match of the retyped value
      is the result, after any number of retries. */
  lemma RecheckPicks(rt: Retriever, retries: seq<string>, typed: string, k: nat, rest: seq<string>)
    requires |rt.backend.rows| > 0
    requires forall i :: 0 <= i < |retries| ==> Retry(rt, retries[i])
    requires LowerAscii(typed) != "quit" && 1 <= k <= 3 && k <= |rt.backend.closeMatches(typed)|
    ensures Recheck(rt, retries + [typed, IntToString(k)] + rest)
            == Success((Some(rt.backend.closeMatches(typed)[k - 1]), rest))
  {
    var selection := IntToString(k);
    var answers := [typed, selection] + rest;
    assert retries + [typed, selection] + rest == retries + answers;
    assert MenuIndex(selection) == Some(k) by { MenuIndexOf(k); }
    assert Recheck(rt, answers) == Round(rt, rt.backend.closeMatches(typed), selection, rest) by {
      assert answers[0] == typed && answers[1] == selection && answers[2..] == rest;
    }
    RecheckSkipsRetries(rt, retries, answers);
  }

  /** Typing the number `k` of a menu entry selects position `k`. */
  lemma MenuIndexOf(k: nat)
    requires 1 <= k <= 3
    ensures MenuIndex(IntToString(k)) == Some(k)
  {
    assert IntToString(k) == [DigitChar(k)];
  }

  /** Where a resolved value can come from: the value itself, a canonical
      value reached through an augmentation alias, a candidate the scorer
      offered for it, or a difflib match for a replacement the user typed. */
  ghost predicate Grounded(rt: Retriever, strategy: Method, value: string, out: string) {
    || out == value
    || out in rt.backend.valueAt.Values
    || out in OfferedFor(rt, value, strategy)
    || exists t :: out in rt.backend.closeMatches(t)
  }

  /** The question put for one value: `1`-`3` pick a candidate, `4` re-enters
      the value, anything else keeps the original. As written, `4` calls
      `recheck_property_value` with one argument too many; corrected, the
      recheck's pick replaces the value, which stays when the user gives up. */
  function Escalate(rt: Retriever, candidates: seq<string>, value: string, answers: seq<string>, variant: Variant)
    : (res: Result<(string, seq<string>), Error>)
    ensures res.Success? ==> Suffix(res.value.1, answers) && |res.value.1| < |answers|
    ensures res.Success? ==>
              || res.value.0 == value
              || res.value.0 in candidates
              || (variant == Corrected && exists t :: res.value.0 in rt.backend.closeMatches(t))
    ensures |answers| == 0 ==> res == Failure(EndOfInput)
    ensures |answers| > 0 && MenuIndex(answers[0]).Some? ==>
              var k := MenuIndex(answers[0]).value;
              res == (if k <= |candidates| then Success((candidates[k - 1], answers[1..])) else Failure(IndexError))
    ensures |answers| > 0 && MenuIndex(answers[0]).None? && answers[0] != "4" ==> res == Success((value, answers[1..]))
    ensures variant == AsWritten && |answers| > 0 && answers[0] == "4" ==> res == Failure(TypeError)
    ensures variant == Corrected && |answers| > 0 && answers[0] == "4" ==>
              var again := Recheck(rt, answers[1..]);
              && (again.Failure? ==> res == Failure(again.error))
              && (again.Success? ==> res == Success((again.value.0.GetOr(value), again.value.1)))
    ensures res.Failure? ==> res.error == IndexError || res.error == EndOfInput
                             || (variant == AsWritten && res.error == TypeError)
                             || (variant == Corrected && res.error == DataAccess)
  {
    if |answers| == 0 then Failure(EndOfInput)
    else
      var choice := answers[0];
      var rest := answers[1..];
      match MenuIndex(choice)
      case Some(k) =>
        (match Pick(candidates, k)
         case Success(m) => Success((m, rest))
         case Failure(e) => Failure(e))
      case None =>
        if choice == "4" then
          match variant
          case AsWritten => Failure(TypeError)
          case Corrected =>
            (match Recheck(rt, rest)
             case Failure(e) => Failure(e)
             case Success((typed, rest2)) =>
               SuffixTrans(rest2, rest, answers);
               Success((typed.GetOr(value), rest2)))
        else Success((value, rest))
  }

  /** Corrected, re-entering a value and picking the `k`-th match of the
      retyped text replaces the value with that match. */
  lemma ReenterPicks(rt: Retriever, candidates: seq<string>, value: string, typed: string, k: nat, rest: seq<string>)
    requires |rt.backend.rows| > 0
    requires LowerAscii(typed) != "quit" && 1 <= k <= 3 && k <= |rt.backend.closeMatches(typed)|
    ensures Escalate(rt, candidates, value, ["4", typed, IntToString(k)] + rest, Corrected)
            == Success((rt.backend.closeMatches(typed)[k - 1], rest))
  {
    var answers := ["4", typed, IntToString(k)] + rest;
    RecheckPicks(rt, [], typed, k, rest);
    assert answers[1..] == [] + [typed, IntToString(k)] + rest;
  }

  /** Corrected, re-entering and then quitting keeps the original value. */
  lemma ReenterQuits(rt: Retriever, candidates: seq<string>, value: string, quit: string, rest: seq<string>)
    requires LowerAscii(quit) == "quit"
    ensures Escalate(rt, candidates, value, ["4", quit] + rest, Corrected) == Success((value, rest))
  {
    var answers := ["4", quit] + rest;
    assert answers[1..] == [quit] + rest && answers[1..][1..] == rest;
  }

  /** Whether the reconciler consults the augmentation table (`if retriever.augmented_table`). */
  predicate Augments(rt: Retriever) {
    rt.config.augmentedTable.Some? && rt.config.augmentedTable.value != ""
  }

  /** One iteration of the value loop: the value it appends and the answers left. */
  function ResolveValue(rt: Retriever, strategy: Method, value: string, answers: seq<string>, variant: Variant)
    : (res: Result<(string, seq<string>), Error>)
    ensures res.Success? ==> Suffix(res.value.1, answers)
    ensures res.Success? ==> Grounded(rt, strategy, value, res.value.0)
    ensures res.Failure? && res.error == TypeError ==> variant == AsWritten
  {
    var aug := if Augments(rt) then AugmentedItem(rt, value) else Success(None);
    if aug.Failure? then Failure(aug.error)
    else if aug.value.Some? && aug.value.value != "" then
      var c := aug.value.value;
      assert c in rt.backend.valueAt.Values by {
        var literal := KeyLiteral(FirstAlias(rt.backend.aliases, value).value);
        assert rt.backend.valueAt[literal] == c;
      }
      Success((c, answers))
    else
      match FindCloseMatches(rt, value, strategy)
      case Failure(e) => Failure(e)
      case Success(top) =>
        match Triage(top, strategy, value, variant)
        case Keep => Success((value, answers))
        case Accept(m) => Success((m, answers))
        case Ask(candidates) => Escalate(rt, candidates, value, answers, variant)
  }

  /** The inner loop over the values of one property: one resolved value per
      original value, in order, each grounded in its original. */
  function ResolveAll(rt: Retriever, strategy: Method, values: seq<string>, answers: seq<string>, variant: Variant)
    : (res: Result<(seq<string>, seq<string>), Error>)
    ensures res.Success? ==> |res.value.0| == |values| && Suffix(res.value.1, answers)
    ensures res.Success? ==> forall j :: 0 <= j < |values| ==> Grounded(rt, strategy, values[j], res.value.0[j])
    decreases |values|
  {
    if |values| == 0 then Success(([], answers))
    else
      match ResolveValue(rt, strategy, values[0], answers, variant)
      case Failure(e) => Failure(e)
      case Success((x, rest)) =>
        match ResolveAll(rt, strategy, values[1..], rest, variant)
        case Failure(e) => Failure(e)
        case Success((xs, rest2)) =>
          SuffixTrans(rest2, rest, answers);
          Success(([x] + xs, rest2))
  }

  /** What the pass leaves under key `k`: a property with a retriever and a
      truthy value becomes a list aligned with the values it iterated, each
      grounded in the original at the same position; every other key keeps
      its value. */
  ghost predicate AlignedEntry(orig: Dict<Value>, upd: Dict<Value>, retrievers: Dict<Retriever>, strategy: Method, k: string) {
    var before := Get(orig, k);
    var rt := Get(retrievers, k);
    if rt.Some? && before.Some? && Truthy(before.value) then
      var after := Get(upd, k);
      && after.Some? && after.value.List?
      && |after.value.items| == |Iterated(before.value)|
      && forall j :: 0 <= j < |after.value.items| ==>
           Grounded(rt.value, strategy, Iterated(before.value)[j], after.value.items[j])
    else Get(upd, k) == before
  }

  ghost predicate Aligned(orig: Dict<Value>, upd: Dict<Value>, retrievers: Dict<Retriever>, strategy: Method) {
    Keys(upd) == Keys(orig) && forall k :: AlignedEntry(orig, upd, retrievers, strategy, k)
  }

  /** The loop over the retrievers for one property dictionary. */
  function UpdateDict(d: Dict<Value>, retrievers: Dict<Retriever>, strategy: Method, answers: seq<string>, variant: Variant)
    : (res: Result<(Dict<Value>, seq<string>), Error>)
    requires Distinct(retrievers)
    ensures res.Success? ==> Aligned(d, res.value.0, retrievers, strategy) && Suffix(res.value.1, answers)
    decreases |retrievers|
  {
    if |retrievers| == 0 then Success((d, answers))
    else
      var (name, rt) := retrievers[0];
      var rest := retrievers[1..];
      assert Distinct(rest);
      var before := Get(d, name).GetOr(List([]));
      if !Truthy(before) then
        var res := UpdateDict(d, rest, strategy, answers, variant);
        if res.Success? then UpdateStep(d, d, res.value.0, retrievers, strategy); res else res
      else
        match ResolveAll(rt, strategy, Iterated(before), answers, variant)
        case Failure(e) => Failure(e)
        case Success((resolved, rest1)) =>
          var d1 := Put(d, name, List(resolved));
          PutKeys(d, name, List(resolved));
          match UpdateDict(d1, rest, strategy, rest1, variant)
          case Failure(e) => Failure(e)
          case Success((d2, rest2)) =>
            UpdateStep(d, d1, d2, retrievers, strategy);
            SuffixTrans(rest2, rest1, answers);
            Success((d2, rest2))
  }

  /** The step of `UpdateDict`: handling the first retriever turns `d` into
      `d1`, and the remaining retrievers turn `d1` into `d2`. */
  lemma UpdateStep(d: Dict<Value>, d1: Dict<Value>, d2: Dict<Value>, retrievers: Dict<Retriever>, strategy: Method)
    requires |retrievers| > 0 && Distinct(retrievers)
    requires Keys(d1) == Keys(d)
    requires var name := retrievers[0].0;
             var before := Get(d, name);
             if before.Some? && Truthy(before.value) then
               var after := Get(d1, name);
               && after.Some? && after.value.List?
               && |after.value.items| == |Iterated(before.value)|
               && forall j :: 0 <= j < |after.value.items| ==>
                    Grounded(retrievers[0].1, strategy, Iterated(before.value)[j], after.value.items[j])
             else d1 == d
    requires forall k :: k != retrievers[0].0 ==> Get(d1, k) == Get(d, k)
    requires Aligned(d1, d2, retrievers[1..], strategy)
    ensures Aligned(d, d2, retrievers, strategy)
  {
    var name := retrievers[0].0;
    var rest := retrievers[1..];
    assert Get(rest, name).None? by {
      forall i | 0 <= i < |rest| ensures rest[i].0 != name {
        assert rest[i] == retrievers[i + 1];
      }
    }
    forall k ensures AlignedEntry(d, d2, retrievers, strategy, k) {
      assert AlignedEntry(d1, d2, rest, strategy, k);
      if k != name {
        assert Get(retrievers, k) == Get(rest, k);
      }
    }
  }

  /** `check_and_update_properties`: every property dictionary of the list,
      in order, sharing one stream of answers. */
  function CheckAndUpdateProperties(ds: seq<Dict<Value>>, retrievers: Dict<Retriever>, strategy: Method,
                                    answers: seq<string>, variant: Variant)
    : (res: Result<(seq<Dict<Value>>, seq<string>), Error>)
    requires Distinct(retrievers)
    ensures res.Success? ==> |res.value.0| == |ds| && Suffix(res.value.1, answers)
    ensures res.Success? ==> forall i :: 0 <= i < |ds| ==> Aligned(ds[i], res.value.0[i], retrievers, strategy)
    decreases |ds|
  {
    if |ds| == 0 then Success(([], answers))
    else
      match UpdateDict(ds[0], retrievers, strategy, answers, variant)
      case Failure(e) => Failure(e)
      case Success((d, rest)) =>
        match CheckAndUpdateProperties(ds[1..], retrievers, strategy, rest, variant)
        case Failure(e) => Failure(e)
        case Success((tail, rest2)) =>
          SuffixTrans(rest2, rest, answers);
          Success(([d] + tail, rest2))
  }

  /** A resolved value other than the original and an augmentation canonical
      value is one of the known values, when the scorers propose only those. */
  lemma ResolvedIsKnown(rt: Retriever, strategy: Method, value: string, out: string)
    requires ScorersGrounded(rt) && Grounded(rt, strategy, value, out)
    ensures out == value || out in rt.backend.valueAt.Values || out in Known(rt)
  {
    FindCloseMatchesGrounded(rt, value, strategy);
    if out !in OfferedFor(rt, value, strategy) && out != value && out !in rt.backend.valueAt.Values {
      var t :| out in rt.backend.closeMatches(t);
    }
  }

  /** An augmentation hit settles the value at once: no answer is consumed and
      neither scorer is consulted, so replacing them changes nothing. */
  lemma AugmentationShortCircuits(rt: Retriever, strategy: Method, value: string, answers: seq<string>,
                                  variant: Variant, extract: string -> seq<Scored>, closeMatches: string -> seq<string>)
    requires Augments(rt)
    requires AugmentedItem(rt, value).Success? && AugmentedItem(rt, value).value.Some?
    requires AugmentedItem(rt, value).value.value != ""
    ensures ResolveValue(rt, strategy, value, answers, variant)
            == Success((AugmentedItem(rt, value).value.value, answers))
    ensures var other := rt.(backend := rt.backend.(extract := extract, closeMatches := closeMatches));
            ResolveValue(other, strategy, value, answers, variant) == ResolveValue(rt, strategy, value, answers, variant)
  {
    var other := rt.(backend := rt.backend.(extract := extract, closeMatches := closeMatches));
    assert AugmentedItem(other, value) == AugmentedItem(rt, value);
  }

  /** With the corrected top-match test, a single non-empty fuzzy match is
      what the pass appends, whether or not it equals the value already. */
  lemma CorrectedAcceptsSingle(rt: Retriever, value: string, answers: seq<string>, s: string)
    requires !Augments(rt) && FindCloseMatches(rt, value, Fuzzy) == Success(Single(s)) && s != ""
    ensures ResolveValue(rt, Fuzzy, value, answers, Corrected) == Success((s, answers))
  {
    var top := Single(s);
    assert Offered(top) == [s];
    if s == value {
      assert Triage(top, Fuzzy, value, Corrected) == Keep;
    } else {
      assert Triage(top, Fuzzy, value, Corrected) == Accept(s);
    }
  }

  /** A team retriever whose fuzzy scorer ranks "Arsenal" first at 91 for any input. */
  function ArsenalRetriever(): Retriever {
    Retriever(
      Config("teams", "name", Some("id"), false, None),
      Backend([KnownValues.TextCell("Arsenal")], map[], map[], [],
              t => [Scored("Arsenal", 91)], t => ["Arsenal"]))
  }

  lemma ArsenalAutoAccepted(target: string)
    ensures FindCloseMatches(ArsenalRetriever(), target, Fuzzy) == Success(Single("Arsenal"))
  {
    var ms := [Scored("Arsenal", 91)];
    assert AtLeast(ms[1..], 70) == [];
    assert AtLeast(ms, 70) == ms;
  }

  /** As written, the value "A" is kept instead of its auto-accepted match,
      because the first character of "Arsenal" equals it; the corrected test
      appends the match. */
  lemma FirstCharacterKeepsValue()
    ensures ResolveValue(ArsenalRetriever(), Fuzzy, "A", [], AsWritten) == Success(("A", []))
    ensures ResolveValue(ArsenalRetriever(), Fuzzy, "A", [], Corrected) == Success(("Arsenal", []))
  {
    ArsenalAutoAccepted("A");
    assert Indexed(Single("Arsenal"))[0] == "A";
  }

  /** As written, asking to re-enter a value aborts the pass; corrected, the
      typed replacement's difflib match is appended in the value's place. */
  lemma ReenterExample()
    ensures ResolveValue(ArsenalRetriever(), Difflib, "Arsnl", ["4", "Arsenal", "1"], AsWritten)
            == Failure(TypeError)
    ensures ResolveValue(ArsenalRetriever(), Difflib, "Arsnl", ["4", "Arsenal", "1"], Corrected)
            == Success(("Arsenal", []))
  {
    var answers := ["4", "Arsenal", "1"];
    assert answers[1..] == ["Arsenal", "1"];
    assert answers[1..][1..] == ["1"];
    assert LowerAscii("Arsenal") != "quit" by {
      assert |LowerAscii("Arsenal")| == 7;
    }
  }
}

=== FILE: retrieval.dfy ===
/** One `Retriever` per property (extractor.py:58-199): its configuration,
    the database contents it reads, the augmentation-table shortcut, the
    dispatch between the two scorers, and the primary-key lookup. Database
    access is replaced by the data each query would read. */
module Retrieval {
  import opened Common
  import opened Text
  import opened Dicts
  import opened KnownValues
  import opened Matching

  /** A primary-key cell: an integer id (teams, leagues) or a text hash (players). */
  datatype Key = IntKey(n: int) | TextKey(t: string)

  /** The `items` configuration of one schema property. */
  datatype Config = Config(
    table: string,
    column: string,
    pkColumn: Option<string>,
    numeric: bool,
    augmentedTable: Option<string>)

  /** What the database answers for one property, and the two scorers' answers.
      `extract` stands for thefuzz `process.extract(target, known, limit=3)`,
      `closeMatches` for `difflib.get_close_matches(target, known, n=3, cutoff=0.2)`. */
  datatype Backend = Backend(
    rows: seq<Cell>,                      // SELECT column FROM table
    firstKey: map<string, Key>,           // SELECT pk FROM table WHERE column = v LIMIT 1
    valueAt: map<string, string>,         // SELECT column FROM table WHERE pk = <literal>, first row
    aliases: seq<(string, Key)>,          // the augmentation table: (alias, foreign key), row order
    extract: string -> seq<Scored>,
    closeMatches: string -> seq<string>)

  datatype Retriever = Retriever(config: Config, backend: Backend)

  /** The matching strategy of a pass: `"fuzzy"`, or anything else for difflib. */
  datatype Method = Fuzzy | Difflib

  /** The values `query_as_list` makes known for this property. */
  ghost function Known(r: Retriever): set<string> {
    Expected(r.backend.rows, r.config.numeric)
  }

  /** The scorers only ever propose known values. */
  ghost predicate ScorersGrounded(r: Retriever) {
    && (forall t, m :: m in r.backend.extract(t) ==> m.choice in Known(r))
    && (forall t, x :: x in r.backend.closeMatches(t) ==> x in Known(r))
  }

  /** The first augmentation row whose alias equals `value` under SQL `LOWER`. */
  function FirstAlias(aliases: seq<(string, Key)>, value: string): (fk: Option<Key>)
    ensures fk.Some? ==> exists i :: 0 <= i < |aliases| && aliases[i].1 == fk.value
                                     && LowerAscii(aliases[i].0) == LowerAscii(value)
                                     && forall j :: 0 <= j < i ==> LowerAscii(aliases[j].0) != LowerAscii(value)
    ensures fk.None? ==> forall i :: 0 <= i < |aliases| ==> LowerAscii(aliases[i].0) != LowerAscii(value)
    decreases |aliases|
  {
    if |aliases| == 0 then None
    else if LowerAscii(aliases[0].0) == LowerAscii(value) then Some(aliases[0].1)
    else
      var rest := FirstAlias(aliases[1..], value);
      assert forall i :: 1 <= i < |aliases| ==> aliases[i] == aliases[1..][i - 1];
      rest
  }

  /** `str()` of a key cell, as the f-string splices it into SQL: unquoted.
      An integer key reads back as the same number, so the query names it. */
  function KeyLiteral(k: Key): (lit: string)
    ensures k.IntKey? ==> ParseInt(lit) == Some(k.n)
  {
    match k
    case IntKey(n) =>
      ParseIntOfIntToString(n);
      IntToString(n)
    case TextKey(t) => t
  }

  /** `get_augmented_items`: no augmentation table or no alias gives `None`;
      the first alias hit follows its foreign key to the canonical column
      value. The key is spliced into SQL as its unquoted text, so whether the
      query names a row is up to the database: a malformed query and an empty
      response handed to `ast.literal_eval` both raise. */
  function AugmentedItem(r: Retriever, value: string): (res: Result<Option<string>, Error>)
    ensures r.config.augmentedTable.None? ==> res == Success(None)
    ensures r.config.augmentedTable.Some? && FirstAlias(r.backend.aliases, value).None? ==> res == Success(None)
    ensures r.config.augmentedTable.Some? && FirstAlias(r.backend.aliases, value).Some? ==>
              var literal := KeyLiteral(FirstAlias(r.backend.aliases, value).value);
              && (res.Success? <==> r.config.pkColumn.Some? && literal in r.backend.valueAt)
              && (res.Success? ==> res.value == Some(r.backend.valueAt[literal]))
    ensures res.Failure? ==> res.error == DataAccess
  {
    if r.config.augmentedTable.None? then Success(None)
    else
      match FirstAlias(r.backend.aliases, value)
      case None => Success(None)
      case Some(fk) =>
        var literal := KeyLiteral(fk);
        if r.config.pkColumn.None? || literal !in r.backend.valueAt then Failure(DataAccess)
        else Success(Some(r.backend.valueAt[literal]))
  }

  /** `find_close_matches(target, n=3, method)`: the known values are loaded
      first, which raises on an empty table (`db.run` answers "" and
      `ast.literal_eval("")` fails); then the fuzzy policy at threshold 70 (the
      default this method passes on) with floor 30, or difflib's list. */
  function FindCloseMatches(r: Retriever, target: string, strategy: Method): (res: Result<MatchResult, Error>)
    ensures res.Failure? <==> |r.backend.rows| == 0
    ensures res.Failure? ==> res.error == DataAccess
    ensures res.Success? && res.value.Single? ==> strategy == Fuzzy
    ensures res.Success? && strategy == Difflib ==> res.value == Candidates(r.backend.closeMatches(target))
    ensures res.Success? && strategy == Fuzzy ==>
              forall x :: x in Offered(res.value) ==> exists m :: m in r.backend.extract(target) && m.choice == x
  {
    if |r.backend.rows| == 0 then Failure(DataAccess)
    else
      match strategy
      case Fuzzy => Success(FuzzyString(r.backend.extract(target), 70, 30))
      case Difflib => Success(Candidates(r.backend.closeMatches(target)))
  }

  /** The strings a successful `find_close_matches` offers; none when it raised. */
  function OfferedFor(r: Retriever, target: string, strategy: Method): seq<string> {
    var res := FindCloseMatches(r, target, strategy);
    if res.Success? then Offered(res.value) else []
  }

  /** Whatever either scorer offers is a known value when the scorers are grounded. */
  lemma FindCloseMatchesGrounded(r: Retriever, target: string, strategy: Method)
    requires ScorersGrounded(r)
    ensures forall x :: x in OfferedFor(r, target, strategy) ==> x in Known(r)
  {
    var res := FindCloseMatches(r, target, strategy);
    forall x | x in OfferedFor(r, target, strategy) ensures x in Known(r) {
      if strategy == Fuzzy {
        var m :| m in r.backend.extract(target) && m.choice == x;
      }
    }
  }

  /** Python's `repr` of a key cell, for keys whose text needs no escaping. */
  function KeyRepr(k: Key): string {
    match k
    case IntKey(n) => IntToString(n)
    case TextKey(t) => "'" + t + "'"
  }

  /** What `db.run` returns for the primary-key lookup of `value`: the text of
      a one-row, one-column result, or the empty string when no row matches. */
  function PkResponse(b: Backend, value: string): string {
    if value in b.firstKey then "[(" + KeyRepr(b.firstKey[value]) + ",)]" else ""
  }

  /** `fetch_pk`: a bare string is wrapped into a one-element list; without a
      primary-key column every position gets `None` and nothing is queried;
      otherwise each position gets the lookup response for the value there. */
  function FetchPk(r: Retriever, v: Value): (pks: seq<Option<string>>)
    ensures |pks| == |AsList(v)|
    ensures r.config.pkColumn.None? ==> forall i :: 0 <= i < |pks| ==> pks[i].None?
    ensures r.config.pkColumn.Some? ==>
              forall i :: 0 <= i < |pks| ==> pks[i] == Some(PkResponse(r.backend, AsList(v)[i]))
  {
    var values := AsList(v);
    if r.config.pkColumn.None? then seq(|values|, i requires 0 <= i < |values| => None)
    else seq(|values|, i requires 0 <= i < |values| => Some(PkResponse(r.backend, values[i])))
  }

  /** The schema's view of one property: its declared type and its `items` configuration. */
  datatype PropertySchema = PropertySchema(kind: string, items: Config)

  /** `setup_retrievers`: one retriever per schema property, in schema order,
      built from that property's `items` configuration over the database `db`. */
  function SetupRetrievers(schema: Dict<PropertySchema>, db: Config -> Backend): (rs: Dict<Retriever>)
    ensures Keys(rs) == Keys(schema)
    ensures forall i :: 0 <= i < |rs| ==> rs[i].1.config == schema[i].1.items
  {
    var rs := seq(|schema|, i requires 0 <= i < |schema| =>
                (schema[i].0, Retriever(schema[i].1.items, db(schema[i].1.items))));
    assert forall i :: 0 <= i < |rs| ==> Keys(rs)[i] == Keys(schema)[i];
    rs
  }
}

=== FILE: text.dfy ===
/** The string primitives the soccer-rag extractor leans on: Python's
    character classes, `str.strip`, `str.split`, `str.replace`, SQL `LOWER`,
    `int()` and decimal rendering. Characters are Unicode scalar values; only
    the ASCII part of Python's classes is modelled exactly. */
module Text {
  import opened Common

  predicate IsDigit(c: char) { '0' <= c <= '9' }

  /** `str.isspace()` on the ASCII range, plus NEL and no-break space. */
  predicate IsSpace(c: char) {
    c == ' ' || '\t' <= c <= '\r' || '\U{1C}' <= c <= '\U{1F}' || c == '\U{85}' || c == '\U{A0}'
  }

  /** Membership in the regular-expression class `\w`: ASCII letters and digits,
      the underscore, and every non-ASCII character that is not a space. */
  predicate IsWordChar(c: char) {
    IsDigit(c) || 'a' <= c <= 'z' || 'A' <= c <= 'Z' || c == '_' || (c > '\U{7F}' && !IsSpace(c))
  }

  /** Drops the leading characters satisfying `drop`. */
  function TrimLeft(s: string, drop: char -> bool): (r: string)
    ensures |r| <= |s| && r == s[|s| - |r|..]
    ensures forall i :: 0 <= i < |s| - |r| ==> drop(s[i])
    ensures r == [] || !drop(r[0])
    decreases |s|
  {
    if |s| > 0 && drop(s[0]) then TrimLeft(s[1..], drop) else s
  }

  /** Drops the trailing characters satisfying `drop`. */
  function TrimRight(s: string, drop: char -> bool): (r: string)
    ensures |r| <= |s| && r == s[..|r|]
    ensures forall i :: |r| <= i < |s| ==> drop(s[i])
    ensures r == [] || !drop(r[|r| - 1])
    decreases |s|
  {
    if |s| > 0 && drop(s[|s| - 1]) then TrimRight(s[..|s| - 1], drop) else s
  }

  /** `r` is the slice of `s` starting at `a`, and everything around it is dropped. */
  ghost predicate StrippedAt(s: string, r: string, a: int, drop: char -> bool) {
    && 0 <= a && a + |r| <= |s|
    && r == s[a..a + |r|]
    && (forall i :: 0 <= i < a ==> drop(s[i]))
    && (forall i :: a + |r| <= i < |s| ==> drop(s[i]))
  }

  /** `s.strip(chars)`: the longest middle slice whose ends are not dropped. */
  function Strip(s: string, drop: char -> bool): (r: string)
    ensures |r| <= |s|
    ensures r == [] || (!drop(r[0]) && !drop(r[|r| - 1]))
    ensures r == [] ==> forall i :: 0 <= i < |s| ==> drop(s[i])
  {
    TrimRight(TrimLeft(s, drop), drop)
  }

  /** What `Strip` keeps is a slice of its input with only dropped characters
      before and after it. */
  lemma StripIsSlice(s: string, drop: char -> bool)
    ensures exists a :: StrippedAt(s, Strip(s, drop), a, drop)
  {
    var left := TrimLeft(s, drop);
    var r := TrimRight(left, drop);
    var a := |s| - |left|;
    assert r == s[a..a + |r|] by {
      assert left == s[a..];
      assert r == left[..|r|];
    }
    assert forall i :: a + |r| <= i < |s| ==> drop(s[i]) by {
      forall i | a + |r| <= i < |s| ensures drop(s[i]) {
        assert s[i] == left[i - a];
      }
    }
    assert Strip(s, drop) == r;
    assert StrippedAt(s, r, a, drop);
  }

  /** `pat` occurs in `s` starting at index `i`. */
  predicate OccursAt(s: string, pat: string, i: int) {
    0 <= i && i + |pat| <= |s| && s[i..i + |pat|] == pat
  }

  /** Python's `pat in s`. */
  ghost predicate Contains(s: string, pat: string) {
    exists i :: OccursAt(s, pat, i)
  }

  lemma OccursShift(s: string, pat: string, i: int)
    requires |s| > 0 && i >= 0
    ensures OccursAt(s[1..], pat, i) <==> OccursAt(s, pat, i + 1)
  {
    if 0 <= i && i + |pat| <= |s| - 1 {
      assert s[1..][i..i + |pat|] == s[i + 1..i + 1 + |pat|];
    }
  }

  /** `s.find(pat)`: the first index at which `pat` occurs. */
  function Find(s: string, pat: string): (r: Option<nat>)
    requires |pat| > 0
    ensures r.Some? ==> OccursAt(s, pat, r.value)
    ensures r.Some? ==> forall j :: 0 <= j < r.value ==> !OccursAt(s, pat, j)
    ensures r.None? ==> forall j :: !OccursAt(s, pat, j)
    decreases |s|
  {
    if |s| < |pat| then None
    else if s[..|pat|] == pat then Some(0)
    else
      var rest := Find(s[1..], pat);
      assert forall j :: OccursAt(s[1..], pat, j) <==> OccursAt(s, pat, j + 1) by {
        forall j ensures OccursAt(s[1..], pat, j) <==> OccursAt(s, pat, j + 1) {
          if j >= 0 { OccursShift(s, pat, j); }
        }
      }
      assert forall j :: j <= 0 ==> !OccursAt(s, pat, j);
      match rest
      case None =>
        assert forall j :: !OccursAt(s, pat, j) by {
          forall j ensures !OccursAt(s, pat, j) {
            if j > 0 { assert !OccursAt(s[1..], pat, j - 1); }
          }
        }
        None
      case Some(i) =>
        assert forall j :: 0 <= j < i + 1 ==> !OccursAt(s, pat, j) by {
          forall j | 0 <= j < i + 1 ensures !OccursAt(s, pat, j) {
            if j > 0 { assert !OccursAt(s[1..], pat, j - 1); }
          }
        }
        Some(i + 1)
  }

  /** An occurrence inside a prefix is an occurrence in the whole string. */
  lemma OccursInPrefix(s: string, pat: string, n: nat, j: int)
    requires n <= |s|
    requires OccursAt(s[..n], pat, j)
    ensures OccursAt(s, pat, j)
  {
    assert s[..n][j..j + |pat|] == s[j..j + |pat|];
  }

  /** `sep.join(parts)`. */
  function Join(parts: seq<string>, sep: string): string
    decreases |parts|
  {
    if |parts| == 0 then ""
    else if |parts| == 1 then parts[0]
    else parts[0] + sep + Join(parts[1..], sep)
  }

  /** `s.split(sep)` for a non-empty separator: the pieces between the
      occurrences of `sep`, found left to right without overlap. */
  function Split(s: string, sep: string): (parts: seq<string>)
    requires |sep| > 0
    ensures |parts| >= 1
    ensures Join(parts, sep) == s
    ensures forall k :: 0 <= k < |parts| ==> !Contains(parts[k], sep)
    ensures !Contains(s, sep) ==> parts == [s]
    decreases |s|
  {
    match Find(s, sep)
    case None => [s]
    case Some(i) =>
      var head := s[..i];
      var rest := s[i + |sep|..];
      assert s[i..i + |sep|] == sep;
      assert s == head + sep + rest by {
        assert s == s[..i] + s[i..i + |sep|] + s[i + |sep|..];
      }
      var tail := Split(rest, sep);
      var parts := [head] + tail;
      assert parts[1..] == tail;
      assert Join(parts, sep) == head + sep + Join(tail, sep);
      assert !Contains(head, sep) by {
        forall j | OccursAt(head, sep, j) ensures false {
          OccursInPrefix(s, sep, i, j);
        }
      }
      assert forall k :: 1 <= k < |parts| ==> parts[k] == tail[k - 1];
      parts
  }

  /** Splitting cuts at the first occurrence of the separator and then splits
      what follows it, so the cuts go left to right without overlap. */
  lemma SplitFirstCut(s: string, sep: string)
    requires |sep| > 0
    ensures var parts := Split(s, sep);
            |parts| > 1 ==> Find(s, sep) == Some(|parts[0]|) && parts[1..] == Split(s[|parts[0]| + |sep|..], sep)
  {
    match Find(s, sep)
    case None =>
    case Some(i) =>
      var parts := Split(s, sep);
      assert parts[0] == s[..i];
  }

  /** `s.replace(target, replacement)` for a non-empty `target`. */
  function Replace(s: string, target: string, replacement: string): (r: string)
    requires |target| > 0
    ensures !Contains(s, target) ==> r == s
  {
    Join(Split(s, target), replacement)
  }

  /** SQLite's `LOWER`, which folds only ASCII letters. */
  function LowerAscii(s: string): (r: string)
    ensures |r| == |s|
    ensures forall i :: 0 <= i < |s| ==> r[i] == (if 'A' <= s[i] <= 'Z' then s[i] - 'A' + 'a' else s[i])
  {
    seq(|s|, i requires 0 <= i < |s| => if 'A' <= s[i] <= 'Z' then s[i] - 'A' + 'a' else s[i])
  }

  function DigitChar(d: nat): char
    requires d < 10
  {
    (48 + d) as char
  }

  /** The decimal digits of `n`, most significant first. */
  function NatToString(n: nat): (r: string)
    ensures |r| > 0
    ensures forall i :: 0 <= i < |r| ==> IsDigit(r[i])
    decreases n
  {
    if n < 10 then [DigitChar(n)] else NatToString(n / 10) + [DigitChar(n % 10)]
  }

  /** `str(n)` for an integer. */
  function IntToString(n: int): (r: string)
    ensures |r| > 0
    ensures forall c :: c in r ==> IsDigit(c) || c == '-'
  {
    if n < 0 then "-" + NatToString(-n) else NatToString(n)
  }

  /** The number spelt by the digits of `b`, skipping underscores. */
  function DigitsValue(b: string): nat
    decreases |b|
  {
    if |b| == 0 then 0
    else if IsDigit(b[|b| - 1]) then DigitsValue(b[..|b| - 1]) * 10 + (b[|b| - 1] as int - 48)
    else DigitsValue(b[..|b| - 1])
  }

  /** The digit body `int()` accepts: digits, with single underscores between digits. */
  predicate WellFormedDigits(b: string) {
    && |b| > 0
    && IsDigit(b[0])
    && IsDigit(b[|b| - 1])
    && forall i :: 0 <= i < |b| ==> IsDigit(b[i]) || (b[i] == '_' && i + 1 < |b| && IsDigit(b[i + 1]))
  }

  /** Python's `int(s)` on text: surrounding spaces, an optional sign, and a
      well-formed digit body; anything else raises `ValueError` (here `None`). */
  function ParseInt(s: string): (r: Option<int>)
  {
    var t := Strip(s, IsSpace);
    var signed := |t| > 0 && (t[0] == '-' || t[0] == '+');
    var body := if signed then t[1..] else t;
    if WellFormedDigits(body) then
      var v: int := DigitsValue(body);
      Some(if signed && t[0] == '-' then -v else v)
    else None
  }

  lemma {:induction false} DigitsValueOfNat(n: nat)
    ensures DigitsValue(NatToString(n)) == n
    decreases n
  {
    var r := NatToString(n);
    if n >= 10 {
      DigitsValueOfNat(n / 10);
      assert r[..|r| - 1] == NatToString(n / 10);
    }
  }

  /** Stripping a string that has no space at either end changes nothing. */
  lemma StripUnspaced(s: string)
    requires s == [] || (!IsSpace(s[0]) && !IsSpace(s[|s| - 1]))
    ensures Strip(s, IsSpace) == s
  {
    assert TrimLeft(s, IsSpace) == s;
    assert TrimRight(s, IsSpace) == s;
  }

  lemma WellFormedNatToString(n: nat)
    ensures WellFormedDigits(NatToString(n))
  {
  }

  /** An unsigned, unspaced, well-formed digit string parses to its value. */
  lemma ParseIntUnsigned(t: string)
    requires WellFormedDigits(t)
    ensures ParseInt(t) == Some(DigitsValue(t))
  {
    StripUnspaced(t);
  }

  /** A minus sign before a well-formed digit string negates its value. */
  lemma ParseIntNegative(body: string, v: nat)
    requires WellFormedDigits(body) && DigitsValue(body) == v
    ensures ParseInt("-" + body) == Some(-(v as int))
  {
    var t := "-" + body;
    assert t[|t| - 1] == body[|body| - 1];
    StripUnspaced(t);
    assert t[1..] == body;
  }

  lemma ParseIntOfNat(n: nat)
    ensures ParseInt(NatToString(n)) == Some(n)
  {
    WellFormedNatToString(n);
    DigitsValueOfNat(n);
    ParseIntUnsigned(NatToString(n));
  }

  /** Rendering an integer and parsing it back gives the integer. */
  lemma ParseIntOfIntToString(n: int)
    ensures ParseInt(IntToString(n)) == Some(n)
  {
    if n < 0 {
      var body := NatToString(-n);
      WellFormedNatToString(-n);
      DigitsValueOfNat(-n);
      ParseIntNegative(body, -n);
      assert IntToString(n) == "-" + body;
    } else {
      ParseIntOfNat(n);
    }
  }

  /** The first element of a split never contains the separator, and a
      separator whose first character is absent from `a` splits `a + sep + b`
      right after `a`. */
  lemma SplitAfter(a: string, sep: string, b: string)
    requires |sep| > 0
    requires sep[0] !in a
    ensures Split(a + sep + b, sep) == [a] + Split(b, sep)
  {
    var s := a + sep + b;
    assert OccursAt(s, sep, |a|) by { assert s[|a|..|a| + |sep|] == sep; }
    forall j | 0 <= j < |a| ensures !OccursAt(s, sep, j) {
      assert s[j] == a[j] && a[j] in a;
      if j + |sep| <= |s| {
        assert s[j..j + |sep|][0] == s[j];
      }
    }
    assert Find(s, sep) == Some(|a|);
    assert s[..|a|] == a;
    assert s[|a| + |sep|..] == b;
  }

  /** A string without the separator's first character splits into itself. */
  lemma SplitNone(s: string, sep: string)
    requires |sep| > 0
    requires sep[0] !in s
    ensures Split(s, sep) == [s]
  {
    forall j | 0 <= j && j + |sep| <= |s| ensures !OccursAt(s, sep, j) {
      assert s[j..j + |sep|][0] == s[j] && s[j] in s;
    }
  }

  /** Stripping drops a prefix made only of dropped characters. */
  lemma {:induction false} TrimLeftPrefix(p: string, s: string, drop: char -> bool)
    requires forall i :: 0 <= i < |p| ==> drop(p[i])
    requires |s| > 0 && !drop(s[0])
    ensures TrimLeft(p + s, drop) == s
    decreases |p|
  {
    if |p| == 0 {
      assert p + s == s;
    } else {
      assert (p + s)[1..] == p[1..] + s;
      TrimLeftPrefix(p[1..], s, drop);
    }
  }

  /** Stripping drops a suffix made only of dropped characters. */
  lemma {:induction false} TrimRightSuffix(s: string, p: string, drop: char -> bool)
    requires forall i :: 0 <= i < |p| ==> drop(p[i])
    requires |s| > 0 && !drop(s[|s| - 1])
    ensures TrimRight(s + p, drop) == s
    decreases |p|
  {
    if |p| == 0 {
      assert s + p == s;
    } else {
      assert (s + p)[..|s + p| - 1] == s + p[..|p| - 1];
      TrimRightSuffix(s, p[..|p| - 1], drop);
    }
  }

  /** Stripping text that only has droppable characters after it gives the text. */
  lemma StripTrailing(s: string, p: string, drop: char -> bool)
    requires |s| > 0 && !drop(s[0]) && !drop(s[|s| - 1])
    requires forall i :: 0 <= i < |p| ==> drop(p[i])
    ensures Strip(s + p, drop) == s
  {
    assert (s + p)[0] == s[0];
    assert TrimLeft(s + p, drop) == s + p;
    TrimRightSuffix(s, p, drop);
  }

  /** Replacing a character that does not occur changes nothing. */
  lemma ReplaceAbsent(s: string, c: char, replacement: string)
    requires c !in s
    ensures Replace(s, [c], replacement) == s
  {
    SplitNone(s, [c]);
  }

  /** Deleting a character that only encloses `t` leaves `t`. */
  lemma ReplaceEnclosing(t: string, c: char)
    requires c !in t
    ensures Replace([c] + t + [c], [c], "") == t
  {
    SplitEnclosing(t, c);
    var parts := ["", t, ""];
    assert Join(parts, "") == "" + "" + Join([t, ""], "");
    assert Join([t, ""], "") == t + "" + Join([""], "");
  }

  /** `c + t + c` splits at `c` into "", `t` and "". */
  lemma SplitEnclosing(t: string, c: char)
    requires c !in t
    ensures Split([c] + t + [c], [c]) == ["", t, ""]
  {
    var tail := t + [c];
    assert [c] + tail == [c] + t + [c];
    assert [""] + [t, ""] == ["", t, ""];
    SplitLeading(tail, c);
    SplitTrailing(t, c);
  }

  /** A string starting with `c` splits into "" and the parts of the rest. */
  lemma SplitLeading(tail: string, c: char)
    ensures Split([c] + tail, [c]) == [""] + Split(tail, [c])
  {
    SplitAfter("", [c], tail);
    assert "" + [c] + tail == [c] + tail;
  }

  /** A string ending in its only occurrence of `c` splits into the text before and "". */
  lemma SplitTrailing(t: string, c: char)
    requires c !in t
    ensures Split(t + [c], [c]) == [t, ""]
  {
    SplitAfter(t, [c], "");
    assert t + [c] + "" == t + [c];
    SplitNone("", [c]);
  }

  /** Replacing the only occurrence of `sep`, which follows `a`, puts `text` in its place. */
  lemma ReplaceOnce(a: string, sep: string, rest: string, text: string)
    requires |sep| > 0 && sep[0] !in a && Split(rest, sep) == [rest]
    ensures Replace(a + sep + rest, sep, text) == a + text + rest
  {
    SplitAfter(a, sep, rest);
    assert Join([a, rest], text) == a + text + Join([rest], text);
  }

  /** A string whose first occurrence of `sep` follows `x` is cut right after `x`. */
  lemma SplitAtFirst(x: string, sep: string, c: string)
    requires |sep| > 0 && Find(x + sep + c, sep) == Some(|x|)
    ensures Split(x + sep + c, sep) == [x] + Split(c, sep)
  {
    var s := x + sep + c;
    assert s[..|x|] == x;
    assert s[|x| + |sep|..] == c;
  }

  /** Replacing a placeholder whose first occurrence follows `x`, and which does
      not recur in `c`, puts `text` in its place and keeps both sides. */
  lemma ReplaceFirst(x: string, sep: string, c: string, text: string)
    requires |sep| > 0 && Find(x + sep + c, sep) == Some(|x|) && !Contains(c, sep)
    ensures Replace(x + sep + c, sep, text) == x + text + c
  {
    SplitAtFirst(x, sep, c);
    assert Split(c, sep) == [c];
    assert Join([x, c], text) == x + text + Join([c], text);
  }

  /** Two successive replacements of two separators that each occur once, in order. */
  lemma ReplaceTwice(a: string, sep1: string, b: string, sep2: string, c: string, text1: string, text2: string)
    requires |sep1| > 0 && |sep2| > 0
    requires sep1[0] !in a && sep2[0] !in a + text1 + b
    requires Split(b + sep2 + c, sep1) == [b + sep2 + c] && Split(c, sep2) == [c]
    ensures Replace(Replace(a + sep1 + b + sep2 + c, sep1, text1), sep2, text2) == a + text1 + b + text2 + c
  {
    Regroup(a, sep1, b, sep2, c, text1);
    ReplaceOnce(a, sep1, b + sep2 + c, text1);
    ReplaceOnce(a + text1 + b, sep2, c, text2);
  }

  lemma Regroup(a: string, sep1: string, b: string, sep2: string, c: string, text1: string)
    ensures a + sep1 + b + sep2 + c == a + sep1 + (b + sep2 + c)
    ensures a + text1 + (b + sep2 + c) == (a + text1 + b) + sep2 + c
  {
  }

  /** A character of a join with an empty separator comes from one of the parts. */
  lemma {:induction false} JoinKeepsChars(parts: seq<string>, i: nat)
    requires i < |Join(parts, "")|
    ensures exists k, j :: 0 <= k < |parts| && 0 <= j < |parts[k]| && parts[k][j] == Join(parts, "")[i]
    decreases |parts|
  {
    if |parts| == 1 {
      assert parts[0][i] == Join(parts, "")[i];
    } else {
      assert Join(parts, "") == parts[0] + Join(parts[1..], "");
      if i >= |parts[0]| {
        JoinKeepsChars(parts[1..], i - |parts[0]|);
        var k, j :| 0 <= k < |parts[1..]| && 0 <= j < |parts[1..][k]|
                    && parts[1..][k][j] == Join(parts[1..], "")[i - |parts[0]|];
        assert parts[1..][k] == parts[k + 1];
      } else {
        assert parts[0][i] == Join(parts, "")[i];
      }
    }
  }

  /** Every character of a part is a character of the join. */
  lemma {:induction false} PartCharsInJoin(parts: seq<string>, sep: string, k: nat, j: nat)
    requires k < |parts| && j < |parts[k]|
    ensures parts[k][j] in Join(parts, sep)
    decreases |parts|
  {
    if |parts| > 1 {
      assert Join(parts, sep) == parts[0] + sep + Join(parts[1..], sep);
      if k > 0 {
        assert parts[1..][k - 1] == parts[k];
        PartCharsInJoin(parts[1..], sep, k - 1, j);
      } else {
        assert parts[0][j] == Join(parts, sep)[j];
      }
    }
  }

  /** `s.replace(c, "")` deletes every `c` and brings in no new character. */
  lemma DeleteChar(s: string, c: char)
    ensures c !in Replace(s, [c], "")
    ensures forall x :: x in Replace(s, [c], "") ==> x in s
  {
    var parts := Split(s, [c]);
    var r := Replace(s, [c], "");
    forall i | 0 <= i < |r| ensures r[i] != c && r[i] in s {
      JoinKeepsChars(parts, i);
      var k, j :| 0 <= k < |parts| && 0 <= j < |parts[k]| && parts[k][j] == r[i];
      assert !OccursAt(parts[k], [c], j);
      assert parts[k][j..j + 1] == [parts[k][j]];
      PartCharsInJoin(parts, [c], k, j);
    }
  }
}
